=== FILE: README.md ===
# DOB trait decoder, modelled in Dafny

This project models the DNA-to-traits decoder of a Spore "DOB" decoder
program (`dobs_decode` in `src/decoder.rs`). Given a DNA byte string, a
64-bit seed and a trait schema, the decoder walks the schema's named trait
groups in order. For every field it takes exactly `byte_length` bytes off the
front of the DNA. It turns them into an offset with an asymmetric byte order:
1 byte as is, 2 bytes little-endian, 4 bytes big-endian, 8 bytes little-endian.
It then resolves the offset against every entry of the field's optional trait
pool. String, number and float sets pick element `offset mod len`. Number and
float ranges give `lower + offset mod (upper - lower)`. The mutant set and
mutant range kinds first add one draw of the seeded generator, wrapping modulo
2^64. Any error aborts the whole decode, and each error kind has a fixed code
from 1 to 8.

Modules:

- `Wrappers`: `Option`, a value or nothing, as in Rust.
- `Bytes`: `Byte` and `U64`, the little- and big-endian readers with their
  inverse encoders, and wrapping `u64` addition.
- `Errors`: the error enum and its codes, and `Outcome` (`Ok | Err | Panic`).
  Failures map to an exit status.
- `Dob`: the schema (`Group`, `Field`, `PoolEntry` with one constructor per
  trait-type arm) and the output (`Trait`, `DecodedGroup`). It also defines the
  measures the contracts use: the bytes a schema takes (`SchemaBytes`), the
  mutant entries it holds (`SchemaMutants`), the traits it yields, and when it
  is well formed (`SchemaValid`).
- `Offset`: taking a segment off the DNA, and the offset rule.
- `Pool`: one pool entry (`ResolveEntry`) and a whole pool (`ResolvePool`).
- `Decoder`: the decode pass as recursive functions over fields, groups and
  the schema.
- `DecoderProperties`: lemmas that relate several runs, and worked examples.
- `DecodeOrder`: the order of the pass. Decoding a concatenation is decoding
  its parts one after the other. Every field and every group reads the bytes
  and draws right after those of the ones before it, and its traits sit right
  after theirs.
- `DecoderLoops`: the same pass written as the program's nested loops. Each
  loop is proved equal to the recursive definition.
- `Entry`: the argument checks of `dobs_decode`, followed by the decode pass.

The generator is modelled as the stream of its draws, `rng: nat -> U64`. A
counter `drawn` is threaded through the pass: entry `k` of the stream is the
value of the `k`-th `next_u64` call.

Where the code's behaviour is surprising, the model follows the code:

- A field's pool is a list of entries, and the code emits one trait per
  entry, all from the same offset. An empty pool list emits nothing.
- A range whose bounds are equal reaches `% 0`. In Rust that is a panic, so
  it is modelled as the `Panic` outcome. It does not return the lower bound.
- Running out of DNA is checked while the bytes are taken, before the length
  is checked against {1, 2, 4, 8}. A length-3 field therefore fails with
  `InsufficientDNABytes` on a short DNA. On a long enough DNA it fails with
  `InvalidDNAByteLengthSchema`, after consuming its three bytes.
- A float trait is the exact pair (numerator, denominator) that the code
  divides in `f64`.

## Model

| member | source | states |
|---|---|---|
| Errors.Code | src/decoder.rs:11-21 | every error kind has a code between 1 and 8 |
| Errors.CodeRoundTrip | src/decoder.rs:11-21 | every error kind is named back by its own discriminant, so no two kinds share a code |
| Errors.ErrorOfCodeRoundTrip | src/decoder.rs:11-21 | every code from 1 to 8 names the kind whose discriminant it is |
| Errors.FailureStatus | src/decoder.rs:11-21 | the status a failure would report is non-zero: an error's `u64` discriminant, which names that error back, or 101 for a panic, the panic handler's exit status |
| Errors.FailureStatusInjective | src/main.rs:12-17 | two different failures never exit with the same status |
| Bytes.FromLittleEndian | src/decoder.rs:95-97 | a little-endian value of `k` bytes is below 256^k |
| Bytes.FromBigEndian | src/decoder.rs:96 | a big-endian value of `k` bytes is below 256^k |
| Bytes.ToLittleEndian | src/decoder.rs:95-97 | every value below 256^k has a `k`-byte little-endian encoding that reads back as that value |
| Bytes.ToBigEndian | src/decoder.rs:96 | every value below 256^k has a `k`-byte big-endian encoding that reads back as that value |
| Bytes.LittleEndianRoundTrip | src/decoder.rs:95-97 | reading bytes little-endian and re-encoding them gives the same bytes |
| Bytes.BigEndianRoundTrip | src/decoder.rs:96 | reading bytes big-endian and re-encoding them gives the same bytes |
| Bytes.WrappingAdd | src/decoder.rs:137 | offset plus draw is the true sum, or the sum minus 2^64 when it overflows; no overflow means no change |
| Offset.Take | src/decoder.rs:85-92 | taking `n` bytes fails with `InsufficientDNABytes` exactly when fewer than `n` remain; otherwise the segment has `n` bytes and the segment followed by the rest is the whole DNA |
| Offset.TakeSegment | src/decoder.rs:86-92 | the byte-by-byte removal loop computes the same as `Take`, including failing on the first missing byte |
| Offset.SegmentOffset | src/decoder.rs:93-99 | a segment gives an offset exactly when its length is 1, 2, 4 or 8; otherwise the result is `InvalidDNAByteLengthSchema`; the offset is below 256^length |
| Offset.OffsetByteOrder | src/decoder.rs:93-97 | any 1-byte value, any 2-byte value encoded little-endian, any 4-byte value encoded big-endian and any 8-byte value encoded little-endian is read back unchanged |
| Offset.OffsetExamples | src/decoder.rs:93-98 | `01 00` reads 1 and `00 01` reads 256; `00 00 00 01` reads 1 and `01 00 00 00` reads 2^24; 8 bytes `01 00 ..` read 1; 3 bytes are rejected |
| Pool.ResolveEntry | src/decoder.rs:105-172 | an entry fails exactly when it is invalid. An empty set gives `InvalidDNASetSchema` and a range with upper below lower gives `InvalidDNARangeSchema`; equal bounds panic. Otherwise the trait is the set element at the one index congruent to the key, or the range value congruent to lower + key, inside [lower, upper). The key is the offset, plus the next draw (wrapping) for mutant kinds, and only mutant kinds take a draw |
| Pool.ResolvePool | src/decoder.rs:104-173 | a pool resolves exactly when all its entries are valid. It then yields one trait per entry and takes one draw per mutant entry |
| Pool.ResolvePoolAdmissible | src/decoder.rs:104-173 | trait `i` of a resolved pool is admissible for entry `i`: a member of its set, or a value inside its range |
| Pool.PoolFailsAtFirstInvalid | src/decoder.rs:104-173 | a failing pool fails as its first invalid entry does; later entries do not matter |
| Pool.ResolvePoolInOrder | src/decoder.rs:104-173 | trait `i` of a pool is what entry `i` emits when resolved after the draws of all earlier mutant entries |
| Pool.ResolvePoolReadsOnlyItsDraws | src/decoder.rs:133-171 | a pool reads only the draws its own mutant entries take |
| Decoder.DecodeField | src/decoder.rs:85-103 | a field fails with `InsufficientDNABytes` when the DNA is too short, even if its length is invalid. With enough DNA, an invalid length gives `InvalidDNAByteLengthSchema`. It succeeds exactly when its length is 1/2/4/8, its pool is valid and the DNA is long enough. It then consumes exactly its bytes from the front, takes one draw per mutant entry, and raises only decode-phase errors. Without a pool its one trait is `Number` of the offset of its own bytes |
| Decoder.DecodeFieldPooled | src/decoder.rs:93-172 | a pooled field with enough DNA and an accepted length ends exactly as its pool does, resolved against the offset of its own first `byte_length` bytes. A pool that resolves gives its traits and draw count, and the field consumes its bytes. A pool that fails gives the pool's own error or panic |
| Decoder.DecodeFields | src/decoder.rs:84-174 | a group's fields succeed exactly when all are valid and the DNA holds their total length; exactly that many bytes are consumed from the front, one trait per field or per pool entry, one draw per mutant entry |
| Decoder.DecodeGroups | src/decoder.rs:81-176 | the groups succeed exactly when the schema is valid and the DNA holds its total length. They consume exactly `SchemaBytes` bytes from the front and take exactly `SchemaMutants` draws. Each schema group yields one decoded group, in order, with its name copied and its trait count |
| Decoder.Decode | src/decoder.rs:80-176 | the decode succeeds exactly when the schema is well formed and the DNA is long enough. It then yields one group per schema group, in schema order, with the names copied. Its errors are always codes 5..8 |
| DecoderProperties.LeftoverDnaIgnored | src/decoder.rs:85-92 | once the DNA holds the schema's bytes, appending more bytes never changes the outcome, whether success, error or panic |
| DecoderProperties.DecodeReadsOnlyItsBytes | src/decoder.rs:85-92 | the outcome depends only on the first `SchemaBytes` bytes of the DNA |
| DecoderProperties.DecodeReadsOnlyMutantDraws | src/decoder.rs:133-171 | two generators that agree on the first `SchemaMutants` draws give the same outcome; a schema without mutant entries ignores the seed |
| DecoderProperties.ShortDnaIsInsufficient | src/decoder.rs:87-90 | with a well-formed schema, a DNA shorter than the schema's total length fails with `InsufficientDNABytes` |
| DecoderProperties.ExamplePlainByte | src/decoder.rs:100-102 | byte `0A` with no pool gives `Number(10)` under the group's name |
| DecoderProperties.ExampleStringSet | src/decoder.rs:106-113 | `01 00` as a 2-byte field over ["Red","Green","Blue"] gives "Green" |
| DecoderProperties.ExampleNumberRange | src/decoder.rs:141-149 | offset 5 over the range [10, 20) gives 15 |
| DecoderProperties.ExampleTwoEntries | src/decoder.rs:104-173 | a two-entry pool emits two traits from the same offset, in pool order |
| DecoderProperties.ExampleLengthFailures | src/decoder.rs:86-99 | concrete failures on lengths: no DNA, length 3 with and without enough DNA, and length 0 |
| DecoderProperties.ExamplePoolFailures | src/decoder.rs:105-171 | concrete failures on pool entries: an empty set, a reversed range, and an empty mutant range (a panic) |
| DecoderProperties.MutantOrderMatters | src/decoder.rs:133-171 | swapping two mutant fields swaps the draws they take and changes the decoded traits |
| DecoderLoops.ResolvePoolLoop | src/decoder.rs:104-173 | the pool loop with its early return computes exactly `ResolvePool` |
| DecoderLoops.DecodeFieldSteps | src/decoder.rs:85-103 | take loop, offset match and pool loop together compute exactly `DecodeField` |
| DecoderLoops.DecodeFieldsLoop | src/decoder.rs:84-174 | the field loop computes exactly `DecodeFields` |
| DecoderLoops.DecodeLoops | src/decoder.rs:80-176 | the program's nested loops, consuming the DNA in place and counting draws, compute exactly the recursive `Decode` on every input |
| Entry.ParseArgs | src/decoder.rs:41-77 | the checks run in the code's order. A count other than 4 gives `UnexpectedArgCount`. An odd DNA text gives `UnexpectedArgBytesLength`, and DNA text that is not hex gives `InvalidArgFormat`. A seed that does not parse also gives `InvalidArgFormat`. For the schema text, odd length gives `UnexpectedArgBytesLength`, non-hex gives `InvalidArgFormat` and a schema that does not parse gives `InvalidArgMolFormat`. The result is Ok exactly when every check passes, and it then holds the parsed values. Only codes 1..4 arise, never a panic |
| Entry.DobsDecode | src/decoder.rs:40-183 | an argument error is reported exactly when the argument checks fail, and it is the error those checks give. Otherwise the outcome is the decode pass over the parsed DNA and schema, with the generator seeded from the parsed seed |
| Entry.OddSchemaTextRejected | src/decoder.rs:69-73 | once DNA and seed have parsed, an odd-length schema text gives `UnexpectedArgBytesLength`, whatever the schema parser would do |
| Entry.DecodePhaseOutcomes | src/decoder.rs:79-176 | once the arguments have parsed, the program ends in success, a panic, or an error with code 5..8 |
| Entry.BlindHex | src/decoder.rs:58-62 | the hex decoder behind a zero-length destination: it accepts exactly the texts the real decoder accepts, yields no bytes for them, and leaves the other collaborators unchanged |
| Entry.ParseArgsAsWritten | src/decoder.rs:58-77 | the argument checks as written equal the intended checks under `BlindHex`, a hex decoder that keeps its verdict on a text and drops its bytes. So the same checks fail with the same errors, and on success the DNA is empty and the schema is the one parsed from no bytes |
| Entry.DobsDecodeAsWritten | src/decoder.rs:40-183 | the program as written equals the intended program under `BlindHex`. Once the checks pass, the decode pass runs on the empty DNA |
| Entry.AsWrittenDecodesNoDna | src/decoder.rs:58-62 | as written, the decode pass sees empty DNA. If parsing zero bytes yields a well-formed schema that takes at least one byte, the program fails with `InsufficientDNABytes`, whatever DNA was passed |
| Entry.AsWrittenIgnoresTexts | src/decoder.rs:55-77 | as written, the outcome depends on the DNA and schema texts only through their parity and whether they are hex, whatever the schema parser does. Two argument vectors with the same seed text that agree in both end the same way |
| Entry.DnaDiscardedExample | src/decoder.rs:58-77 | DNA `0a` or `0b` with schema text `01`, under a schema parser that reads `01` as one pool-less one-byte field and rejects every other byte string. The intended program yields `Number(10)` and `Number(11)`. As written, both fail with `InvalidArgMolFormat`, because the parser is given no bytes |
| DecodeOrder.DecodeFieldsAppend | src/decoder.rs:84-174 | decoding the fields `a + b` is decoding `a`, then `b` on the DNA and draw count `a` left, with the traits concatenated; a failure in `a` is the outcome |
| DecodeOrder.DecodeGroupsAppend | src/decoder.rs:81-176 | decoding the groups `a + b` is decoding `a`, then `b` from where `a` stopped, with the decoded groups concatenated |
| DecodeOrder.DecodeFieldsInOrder | src/decoder.rs:84-174 | in a group that decodes, each field decodes from the bytes right after those of the fields before it, with the draws right after theirs. It consumes exactly its own bytes, and its traits are the slice of the group's traits right after theirs |
| DecodeOrder.DecodeGroupInOrder | src/decoder.rs:80-176 | in a schema that decodes, each group is its name with the traits its fields decode from the bytes right after those of the groups before it, with the draws right after theirs. It consumes exactly its own bytes |
| DecodeOrder.DecodeGroupAt | src/decoder.rs:80-176 | decoded group `k` is schema group `k`'s name with the traits its fields decode at byte `SchemaBytes(schema[..k])` and draw `SchemaMutants(schema[..k])` |

## Findings

| source | as written | input that shows it | evidently intended | confidence | as-written member | corrected member |
|---|---|---|---|---|---|---|
| src/decoder.rs:58-62 | `hex_decode` writes into `Vec::with_capacity(len / 2)`, a vector of length zero. As a slice it has length zero, so no decoded byte lands in it. The DNA stays empty, and so do the schema bytes at lines 74-76. The outcome is whatever the schema parser makes of zero bytes, not a decode of the supplied schema | DNA texts `0a` and `0b` with schema text `01` (`Entry.DnaDiscardedExample`): the intended program gives `Number(10)` and `Number(11)`, and as written both give `InvalidArgMolFormat` | decode into a buffer of `len / 2` bytes, so the pass sees the given DNA and schema | not executed | Entry.AsWrittenIgnoresTexts | Entry.DobsDecode |

## Left out

- `src/main.rs`: the raw `ecall` syscalls, the `_start` entry, the heap
  allocator and the "Hello World!" `main` are runtime plumbing. Only the panic
  handler's exit status 101 is used, in `FailureStatus`.
- Errors.FailureStatus: the `main` in `src/main.rs` (lines 57-70) never calls
  `dobs_decode` and always returns 0. No line of the program turns an error
  into an exit status. `FailureStatus` states the status an error's
  `#[repr(u64)]` discriminant would give a caller that passes it on.
- Reading `argv` through `CStr::from_ptr` is pointer FFI. The arguments are
  given as a sequence of byte strings, program name first.
- Hex decoding (`faster_hex::hex_decode`), decimal parsing of the seed, and
  parsing the schema's molecule encoding are library code. They are supplied
  as the `Collaborators` functions, and only the checks and their order are
  modelled.
- Entry.DobsDecode: as written, the decode pass never sees the given DNA.
  `hex_decode` writes into a `Vec::with_capacity` vector, which is a
  zero-length slice, so the decoded DNA and schema bytes stay empty (see
  "## Findings"). `ParseArgs` and `DobsDecode` model the evidently intended
  program and substitute the hex decoder's bytes. `ParseArgsAsWritten` and
  `DobsDecodeAsWritten` model the code as written: the hex decoder's verdict
  on the text survives, but its bytes do not.
- Entry.ParseArgsAsWritten: the source of `faster_hex` is not part of this model,
  so whether `hex_decode` accepts a destination shorter than half the text
  is not visible. `ParseArgsAsWritten` assumes it gives the same verdict on
  the text as it would with a full-length destination.
- `SmallRng::seed_from_u64` and its algorithm are not modelled. The generator
  is an arbitrary stream of 64-bit draws, chosen by the `seed` collaborator.
- Floating-point division in the float arms: a float trait is the exact
  (numerator, denominator) pair. A zero denominator is not an error here,
  just as it is not in the code.
- `serde_json` serialisation of the result: the model returns the decoded
  groups as data.
- Integer widths: the mutant addition wraps modulo 2^64, which assumes a
  build without overflow checks. A build with overflow checks would panic
  instead. `offset as usize` is taken to be lossless because `usize` is 64
  bits on the target. `byte_length` is an unbounded `nat`, and the code
  behaves the same for every value.
- The code removes bytes from the front of a `Vec` one at a time, which is
  quadratic. Costs like this are not modelled.

=== FILE: bytes.dfy ===
/**
  Fixed-width unsigned integers and the byte-order codecs the decoder uses to
  turn a DNA segment into an offset.
 */
module Bytes {

  const TWO_TO_THE_64: nat := 0x1_0000_0000_0000_0000

  /** One DNA or schema byte (Rust `u8`). */
  type Byte = b: int | 0 <= b < 256

  /** Rust `u64`. */
  type U64 = n: int | 0 <= n < TWO_TO_THE_64

  /** 256 to the power `k`: one more than the largest value `k` bytes can hold. */
  function Pow256(k: nat): (r: nat)
    ensures r >= 1
    ensures k >= 1 ==> r >= 256
  {
    if k == 0 then 1 else 256 * Pow256(k - 1)
  }

  /** The unsigned value of `bs` read least significant byte first. */
  function FromLittleEndian(bs: seq<Byte>): (r: nat)
    ensures r < Pow256(|bs|)
  {
    if |bs| == 0 then 0 else bs[0] + 256 * FromLittleEndian(bs[1..])
  }

  /** The unsigned value of `bs` read most significant byte first. */
  function FromBigEndian(bs: seq<Byte>): (r: nat)
    ensures r < Pow256(|bs|)
  {
    if |bs| == 0 then 0 else 256 * FromBigEndian(bs[..|bs| - 1]) + bs[|bs| - 1]
  }

  /** The `k`-byte little-endian encoding of `n`: the inverse of `FromLittleEndian`. */
  function ToLittleEndian(n: nat, k: nat): (bs: seq<Byte>)
    requires n < Pow256(k)
    ensures |bs| == k
    ensures FromLittleEndian(bs) == n
  {
    if k == 0 then []
    else
      assert n / 256 < Pow256(k - 1);
      var rest := ToLittleEndian(n / 256, k - 1);
      assert ([n % 256] + rest)[1..] == rest;
      assert n == n % 256 + 256 * (n / 256);
      [n % 256] + rest
  }

  /** The `k`-byte big-endian encoding of `n`: the inverse of `FromBigEndian`. */
  function ToBigEndian(n: nat, k: nat): (bs: seq<Byte>)
    requires n < Pow256(k)
    ensures |bs| == k
    ensures FromBigEndian(bs) == n
  {
    if k == 0 then []
    else
      assert n / 256 < Pow256(k - 1);
      var front := ToBigEndian(n / 256, k - 1);
      assert (front + [n % 256])[..k - 1] == front;
      assert n == 256 * (n / 256) + n % 256;
      front + [n % 256]
  }

  /** Decoding then re-encoding a little-endian byte string gives it back. */
  lemma {:induction false} LittleEndianRoundTrip(bs: seq<Byte>)
    ensures ToLittleEndian(FromLittleEndian(bs), |bs|) == bs
  {
    if |bs| > 0 {
      var n := FromLittleEndian(bs);
      var tail := FromLittleEndian(bs[1..]);
      assert n % 256 == bs[0] && n / 256 == tail;
      LittleEndianRoundTrip(bs[1..]);
      assert bs == [bs[0]] + bs[1..];
    }
  }

  /** Decoding then re-encoding a big-endian byte string gives it back. */
  lemma {:induction false} BigEndianRoundTrip(bs: seq<Byte>)
    ensures ToBigEndian(FromBigEndian(bs), |bs|) == bs
  {
    if |bs| > 0 {
      var k := |bs|;
      var n := FromBigEndian(bs);
      var front := FromBigEndian(bs[..k - 1]);
      assert n % 256 == bs[k - 1] && n / 256 == front;
      BigEndianRoundTrip(bs[..k - 1]);
      assert bs == bs[..k - 1] + [bs[k - 1]];
    }
  }

  /** Eight bytes hold exactly the values of a `u64`. */
  lemma EightBytesAreU64()
    ensures Pow256(8) == TWO_TO_THE_64
  {
  }

  /**
    `a + b` on `u64` in a build without overflow checks: the sum wraps
    around modulo 2^64.
   */
  function WrappingAdd(a: U64, b: U64): (r: U64)
    ensures r == a + b || r == a + b - TWO_TO_THE_64
    ensures a + b < TWO_TO_THE_64 ==> r == a + b
  {
    (a + b) % TWO_TO_THE_64
  }
}

=== FILE: decode_order.dfy ===
/**
  The order the decode pass works in: fields and groups take their bytes
  strictly from the front of the DNA and their draws strictly from the
  generator's next one, one after the other in schema order, and their
  traits are concatenated in that same order.
 */
module DecodeOrder {
  import opened Bytes
  import opened Errors
  import opened Dob
  import opened Pool
  import opened Decoder
  import opened DecoderProperties

  /** Decoding `a`, then `b` from where `a` stopped: the traits of both, in that order. */
  function ThenFields(x: Outcome<Step>, b: seq<Field>, rng: Rng): Outcome<Step> {
    match x
    case Ok(s) =>
      (match DecodeFields(b, s.dna, rng, s.drawn)
       case Ok(t) => Ok(Step(s.traits + t.traits, t.dna, t.drawn))
       case Err(e) => Err(e)
       case Panic => Panic)
    case Err(e) => Err(e)
    case Panic => Panic
  }

  /** Decoding groups `a`, then groups `b` from where `a` stopped. */
  function ThenGroups(x: Outcome<Progress>, b: Schema, rng: Rng): Outcome<Progress> {
    match x
    case Ok(p) =>
      (match DecodeGroups(b, p.dna, rng, p.drawn)
       case Ok(q) => Ok(Progress(p.groups + q.groups, q.dna, q.drawn))
       case Err(e) => Err(e)
       case Panic => Panic)
    case Err(e) => Err(e)
    case Panic => Panic
  }

  /**
    Sequential composition: decoding the fields `a + b` is decoding `a` and
    then `b` on the DNA and draws `a` left; a failure in `a` is the outcome.
   */
  lemma {:induction false} DecodeFieldsAppend(a: seq<Field>, b: seq<Field>, dna: seq<Byte>, rng: Rng, drawn: nat)
    ensures DecodeFields(a + b, dna, rng, drawn) == ThenFields(DecodeFields(a, dna, rng, drawn), b, rng)
    decreases |a|
  {
    if |a| == 0 {
      assert a + b == b;
      var whole := DecodeFields(b, dna, rng, drawn);
      if whole.Ok? {
        assert [] + whole.value.traits == whole.value.traits;
      }
    } else {
      assert (a + b)[0] == a[0] && (a + b)[1..] == a[1..] + b;
      var first := DecodeField(a[0], dna, rng, drawn);
      if first.Ok? {
        var s := first.value;
        DecodeFieldsAppend(a[1..], b, s.dna, rng, s.drawn);
        var x := DecodeFields(a[1..], s.dna, rng, s.drawn);
        if x.Ok? {
          var y := DecodeFields(b, x.value.dna, rng, x.value.drawn);
          if y.Ok? {
            Associative(s.traits, x.value.traits, y.value.traits);
          }
        }
      }
    }
  }

  /** Sequential composition of groups, as for fields. */
  lemma {:induction false} DecodeGroupsAppend(a: Schema, b: Schema, dna: seq<Byte>, rng: Rng, drawn: nat)
    ensures DecodeGroups(a + b, dna, rng, drawn) == ThenGroups(DecodeGroups(a, dna, rng, drawn), b, rng)
    decreases |a|
  {
    if |a| == 0 {
      assert a + b == b;
      var whole := DecodeGroups(b, dna, rng, drawn);
      if whole.Ok? {
        assert [] + whole.value.groups == whole.value.groups;
      }
    } else {
      assert (a + b)[0] == a[0] && (a + b)[1..] == a[1..] + b;
      var first := DecodeFields(a[0].fields, dna, rng, drawn);
      if first.Ok? {
        var s := first.value;
        var d := DecodedGroup(a[0].name, s.traits);
        DecodeGroupsAppend(a[1..], b, s.dna, rng, s.drawn);
        var x := DecodeGroups(a[1..], s.dna, rng, s.drawn);
        if x.Ok? {
          var y := DecodeGroups(b, x.value.dna, rng, x.value.drawn);
          if y.Ok? {
            Associative([d], x.value.groups, y.value.groups);
          }
        }
      }
    }
  }

  /** The middle part of a three-part concatenation is its slice between the first part's end and the second's. */
  lemma MiddleOfConcat<T>(a: seq<T>, b: seq<T>, c: seq<T>)
    ensures (a + (b + c))[|a|..|a| + |b|] == b
  {
  }

  /** Dropping `a` elements and then `b` more drops `a + b`. */
  lemma DropDrop<T>(xs: seq<T>, a: nat, b: nat)
    requires a + b <= |xs|
    ensures xs[a..][b..] == xs[a + b..]
  {
  }

  /** The element between two parts of a concatenation sits at the first part's length. */
  lemma ElementAfter<T>(a: seq<T>, b: T, c: seq<T>)
    ensures (a + ([b] + c))[|a|] == b
  {
  }

  /** A sequence is the part before index `k`, the element at `k`, and the part after it. */
  lemma AroundIndex<T>(xs: seq<T>, k: nat)
    requires k < |xs|
    ensures xs == xs[..k] + ([xs[k]] + xs[k + 1..])
  {
  }

  lemma Associative<T>(a: seq<T>, b: seq<T>, c: seq<T>)
    ensures a + (b + c) == (a + b) + c
  {
  }

  /** A composition that succeeds: both parts succeed, and the traits are the first part's, then the second's. */
  lemma ThenFieldsOk(x: Outcome<Step>, b: seq<Field>, rng: Rng)
    requires ThenFields(x, b, rng).Ok?
    ensures x.Ok? && DecodeFields(b, x.value.dna, rng, x.value.drawn).Ok?
    ensures var y := DecodeFields(b, x.value.dna, rng, x.value.drawn).value;
      ThenFields(x, b, rng).value == Step(x.value.traits + y.traits, y.dna, y.drawn)
  {
  }

  lemma ThenGroupsOk(x: Outcome<Progress>, b: Schema, rng: Rng)
    requires ThenGroups(x, b, rng).Ok?
    ensures x.Ok? && DecodeGroups(b, x.value.dna, rng, x.value.drawn).Ok?
    ensures var y := DecodeGroups(b, x.value.dna, rng, x.value.drawn).value;
      ThenGroups(x, b, rng).value == Progress(x.value.groups + y.groups, y.dna, y.drawn)
  {
  }

  /**
    A group that decodes, split around one field: the fields before it, the
    field, and the fields after it each decode from where the previous part
    stopped, and the group's traits are theirs in that order.
   */
  lemma DecodeFieldsSplit(before: seq<Field>, f: Field, after: seq<Field>, dna: seq<Byte>, rng: Rng, drawn: nat)
    returns (x: Step, s: Step, z: Step)
    requires DecodeFields(before + ([f] + after), dna, rng, drawn).Ok?
    ensures DecodeFields(before, dna, rng, drawn) == Ok(x)
    ensures DecodeField(f, x.dna, rng, x.drawn) == Ok(s)
    ensures DecodeFields(after, s.dna, rng, s.drawn) == Ok(z)
    ensures DecodeFields(before + ([f] + after), dna, rng, drawn).value.traits == x.traits + (s.traits + z.traits)
  {
    DecodeFieldsAppend(before, [f] + after, dna, rng, drawn);
    ThenFieldsOk(DecodeFields(before, dna, rng, drawn), [f] + after, rng);
    x := DecodeFields(before, dna, rng, drawn).value;
    DecodeFieldsAppend([f], after, x.dna, rng, x.drawn);
    ThenFieldsOk(DecodeFields([f], x.dna, rng, x.drawn), after, rng);
    OneField(f, x.dna, rng, x.drawn);
    s := DecodeField(f, x.dna, rng, x.drawn).value;
    z := DecodeFields(after, s.dna, rng, s.drawn).value;
  }

  /** The field after `before` reads from where `before` stopped. */
  lemma FieldAfter(before: seq<Field>, f: Field, dna: seq<Byte>, rng: Rng, drawn: nat, x: Step, s: Step)
    requires FieldsBytes(before) <= |dna|
    requires x.dna == dna[FieldsBytes(before)..] && x.drawn == drawn + FieldsMutants(before)
    requires DecodeField(f, x.dna, rng, x.drawn) == Ok(s)
    ensures DecodeField(f, dna[FieldsBytes(before)..], rng, drawn + FieldsMutants(before)) == Ok(s)
  {
  }

  /** The field between `before` and `after` decodes right after `before`, taking the next draws. */
  lemma FieldDrawsInOrder(before: seq<Field>, f: Field, after: seq<Field>, dna: seq<Byte>, rng: Rng, drawn: nat)
    requires DecodeFields(before + ([f] + after), dna, rng, drawn).Ok?
    ensures FieldsBytes(before) <= |dna|
    ensures var r := DecodeField(f, dna[FieldsBytes(before)..], rng, drawn + FieldsMutants(before));
      && r.Ok?
      && r.value.drawn == drawn + FieldsMutants(before) + FieldMutants(f)
  {
    var x, s, z := DecodeFieldsSplit(before, f, after, dna, rng, drawn);
    FieldAfter(before, f, dna, rng, drawn, x, s);
  }

  /** The field between `before` and `after` leaves the DNA after its own bytes. */
  lemma FieldBytesInOrder(before: seq<Field>, f: Field, after: seq<Field>, dna: seq<Byte>, rng: Rng, drawn: nat)
    requires DecodeFields(before + ([f] + after), dna, rng, drawn).Ok?
    ensures FieldsBytes(before) + f.byteLength <= |dna|
    ensures var r := DecodeField(f, dna[FieldsBytes(before)..], rng, drawn + FieldsMutants(before));
      r.Ok? && r.value.dna == dna[FieldsBytes(before) + f.byteLength..]
  {
    var x, s, z := DecodeFieldsSplit(before, f, after, dna, rng, drawn);
    FieldBytesAfter(before, f, dna, rng, drawn, x, s);
  }

  /** The field after `before` stops where its own bytes end. */
  lemma FieldBytesAfter(before: seq<Field>, f: Field, dna: seq<Byte>, rng: Rng, drawn: nat, x: Step, s: Step)
    requires FieldsBytes(before) <= |dna|
    requires x.dna == dna[FieldsBytes(before)..] && x.drawn == drawn + FieldsMutants(before)
    requires DecodeField(f, x.dna, rng, x.drawn) == Ok(s)
    ensures FieldsBytes(before) + f.byteLength <= |dna|
    ensures var r := DecodeField(f, dna[FieldsBytes(before)..], rng, drawn + FieldsMutants(before));
      r == Ok(s) && s.dna == dna[FieldsBytes(before) + f.byteLength..]
  {
    FieldAfter(before, f, dna, rng, drawn, x, s);
    assert s.dna == x.dna[f.byteLength..];
    DropDrop(dna, FieldsBytes(before), f.byteLength);
  }

  /** The traits of the field between `before` and `after` sit right after those of `before`. */
  lemma FieldTraitsInOrder(before: seq<Field>, f: Field, after: seq<Field>, dna: seq<Byte>, rng: Rng, drawn: nat, whole: Step)
    requires DecodeFields(before + ([f] + after), dna, rng, drawn) == Ok(whole)
    ensures FieldsBytes(before) <= |dna|
    ensures FieldsTraits(before) + FieldTraits(f) <= |whole.traits|
    ensures var r := DecodeField(f, dna[FieldsBytes(before)..], rng, drawn + FieldsMutants(before));
      r.Ok? && r.value.traits == whole.traits[FieldsTraits(before)..FieldsTraits(before) + FieldTraits(f)]
  {
    var x, s, z := DecodeFieldsSplit(before, f, after, dna, rng, drawn);
    FieldTraitsAfter(before, f, dna, rng, drawn, x, s, z, whole);
  }

  /** The traits of the field after `before` follow those of `before` in the traits of the whole. */
  lemma FieldTraitsAfter(before: seq<Field>, f: Field, dna: seq<Byte>, rng: Rng, drawn: nat, x: Step, s: Step, z: Step, whole: Step)
    requires FieldsBytes(before) <= |dna|
    requires x.dna == dna[FieldsBytes(before)..] && x.drawn == drawn + FieldsMutants(before)
    requires |x.traits| == FieldsTraits(before)
    requires DecodeField(f, x.dna, rng, x.drawn) == Ok(s)
    requires whole.traits == x.traits + (s.traits + z.traits)
    ensures FieldsTraits(before) + FieldTraits(f) <= |whole.traits|
    ensures var r := DecodeField(f, dna[FieldsBytes(before)..], rng, drawn + FieldsMutants(before));
      r.Ok? && r.value.traits == whole.traits[FieldsTraits(before)..FieldsTraits(before) + FieldTraits(f)]
  {
    FieldAfter(before, f, dna, rng, drawn, x, s);
    MiddleOfConcat(x.traits, s.traits, z.traits);
  }

  /**
    Any field `f` of a group that decodes, with the fields `before` it and
    `after` it (every index `k` gives such a split, see `AroundIndex`), reads
    the bytes right after those of the fields before it, takes the draws
    right after theirs, and its traits sit right after theirs in the group's
    traits.
   */
  lemma DecodeFieldsInOrder(fields: seq<Field>, before: seq<Field>, f: Field, after: seq<Field>, dna: seq<Byte>, rng: Rng, drawn: nat)
    requires fields == before + ([f] + after)
    requires DecodeFields(fields, dna, rng, drawn).Ok?
    ensures FieldsBytes(before) + f.byteLength <= |dna|
    ensures FieldsTraits(before) + FieldTraits(f) <= FieldsTraits(fields)
    ensures var r := DecodeField(f, dna[FieldsBytes(before)..], rng, drawn + FieldsMutants(before));
      && r.Ok?
      && r.value.traits == DecodeFields(fields, dna, rng, drawn).value.traits[FieldsTraits(before)..FieldsTraits(before) + FieldTraits(f)]
      && r.value.dna == dna[FieldsBytes(before) + f.byteLength..]
      && r.value.drawn == drawn + FieldsMutants(before) + FieldMutants(f)
  {
    FieldDrawsInOrder(before, f, after, dna, rng, drawn);
    FieldBytesInOrder(before, f, after, dna, rng, drawn);
    FieldTraitsInOrder(before, f, after, dna, rng, drawn, DecodeFields(fields, dna, rng, drawn).value);
  }

  /** A schema that decodes, split around one group. */
  lemma DecodeGroupsSplit(before: Schema, g: Group, after: Schema, dna: seq<Byte>, rng: Rng, drawn: nat)
    returns (x: Progress, s: Step, z: Progress)
    requires DecodeGroups(before + ([g] + after), dna, rng, drawn).Ok?
    ensures DecodeGroups(before, dna, rng, drawn) == Ok(x)
    ensures DecodeFields(g.fields, x.dna, rng, x.drawn) == Ok(s)
    ensures DecodeGroups(after, s.dna, rng, s.drawn) == Ok(z)
    ensures DecodeGroups(before + ([g] + after), dna, rng, drawn).value.groups
      == x.groups + ([DecodedGroup(g.name, s.traits)] + z.groups)
  {
    DecodeGroupsAppend(before, [g] + after, dna, rng, drawn);
    ThenGroupsOk(DecodeGroups(before, dna, rng, drawn), [g] + after, rng);
    x := DecodeGroups(before, dna, rng, drawn).value;
    DecodeGroupsAppend([g], after, x.dna, rng, x.drawn);
    ThenGroupsOk(DecodeGroups([g], x.dna, rng, x.drawn), after, rng);
    SingleGroup(g, x.dna, rng, x.drawn);
    s := DecodeFields(g.fields, x.dna, rng, x.drawn).value;
    z := DecodeGroups(after, s.dna, rng, s.drawn).value;
  }

  /** The group after `before` reads from where `before` stopped. */
  lemma GroupAfter(before: Schema, g: Group, dna: seq<Byte>, rng: Rng, x: Progress, s: Step)
    requires SchemaBytes(before) <= |dna|
    requires x.dna == dna[SchemaBytes(before)..] && x.drawn == SchemaMutants(before)
    requires DecodeFields(g.fields, x.dna, rng, x.drawn) == Ok(s)
    ensures DecodeFields(g.fields, dna[SchemaBytes(before)..], rng, SchemaMutants(before)) == Ok(s)
  {
  }

  /** The group between `before` and `after` decodes right after `before`, taking the next draws. */
  lemma GroupDrawsInOrder(before: Schema, g: Group, after: Schema, dna: seq<Byte>, rng: Rng)
    requires DecodeGroups(before + ([g] + after), dna, rng, 0).Ok?
    ensures SchemaBytes(before) <= |dna|
    ensures var r := DecodeFields(g.fields, dna[SchemaBytes(before)..], rng, SchemaMutants(before));
      r.Ok? && r.value.drawn == SchemaMutants(before) + FieldsMutants(g.fields)
  {
    var x, s, z := DecodeGroupsSplit(before, g, after, dna, rng, 0);
    GroupAfter(before, g, dna, rng, x, s);
  }

  /** The group between `before` and `after` leaves the DNA after its own bytes. */
  lemma GroupBytesInOrder(before: Schema, g: Group, after: Schema, dna: seq<Byte>, rng: Rng)
    requires DecodeGroups(before + ([g] + after), dna, rng, 0).Ok?
    ensures SchemaBytes(before) + FieldsBytes(g.fields) <= |dna|
    ensures var r := DecodeFields(g.fields, dna[SchemaBytes(before)..], rng, SchemaMutants(before));
      r.Ok? && r.value.dna == dna[SchemaBytes(before) + FieldsBytes(g.fields)..]
  {
    var x, s, z := DecodeGroupsSplit(before, g, after, dna, rng, 0);
    GroupBytesAfter(before, g, dna, rng, x, s);
  }

  /** The group after `before` stops where its own bytes end. */
  lemma GroupBytesAfter(before: Schema, g: Group, dna: seq<Byte>, rng: Rng, x: Progress, s: Step)
    requires SchemaBytes(before) <= |dna|
    requires x.dna == dna[SchemaBytes(before)..] && x.drawn == SchemaMutants(before)
    requires DecodeFields(g.fields, x.dna, rng, x.drawn) == Ok(s)
    ensures SchemaBytes(before) + FieldsBytes(g.fields) <= |dna|
    ensures var r := DecodeFields(g.fields, dna[SchemaBytes(before)..], rng, SchemaMutants(before));
      r == Ok(s) && s.dna == dna[SchemaBytes(before) + FieldsBytes(g.fields)..]
  {
    GroupAfter(before, g, dna, rng, x, s);
    assert s.dna == x.dna[FieldsBytes(g.fields)..];
    DropDrop(dna, SchemaBytes(before), FieldsBytes(g.fields));
  }

  /** The decoded group between `before` and `after` sits right after those of `before`. */
  lemma GroupTraitsInOrder(before: Schema, g: Group, after: Schema, dna: seq<Byte>, rng: Rng, whole: Progress)
    requires DecodeGroups(before + ([g] + after), dna, rng, 0) == Ok(whole)
    ensures SchemaBytes(before) <= |dna|
    ensures |before| < |whole.groups|
    ensures var r := DecodeFields(g.fields, dna[SchemaBytes(before)..], rng, SchemaMutants(before));
      r.Ok? && whole.groups[|before|] == DecodedGroup(g.name, r.value.traits)
  {
    var x, s, z := DecodeGroupsSplit(before, g, after, dna, rng, 0);
    GroupAfter(before, g, dna, rng, x, s);
    assert |x.groups| == |before|;
    ElementAfter(x.groups, DecodedGroup(g.name, s.traits), z.groups);
  }

  /**
    Any group `g` of a schema that decodes, with the groups `before` it and
    `after` it: its decoded traits are those its fields decode from the
    bytes right after those of the groups before it, with the draws right
    after theirs.
   */
  lemma DecodeGroupInOrder(schema: Schema, before: Schema, g: Group, after: Schema, dna: seq<Byte>, rng: Rng)
    requires schema == before + ([g] + after)
    requires Decode(schema, dna, rng).Ok?
    ensures SchemaBytes(before) + FieldsBytes(g.fields) <= |dna|
    ensures |before| < |schema|
    ensures var r := DecodeFields(g.fields, dna[SchemaBytes(before)..], rng, SchemaMutants(before));
      && r.Ok?
      && Decode(schema, dna, rng).value[|before|] == DecodedGroup(g.name, r.value.traits)
      && r.value.dna == dna[SchemaBytes(before) + FieldsBytes(g.fields)..]
      && r.value.drawn == SchemaMutants(before) + FieldsMutants(g.fields)
  {
    GroupDrawsInOrder(before, g, after, dna, rng);
    GroupBytesInOrder(before, g, after, dna, rng);
    GroupTraitsInOrder(before, g, after, dna, rng, DecodeGroups(schema, dna, rng, 0).value);
  }

  /**
    Group `k` of a schema that decodes: its decoded traits are those its
    fields decode from the bytes right after those of groups `0..k`, with the
    draws right after theirs.
   */
  lemma DecodeGroupAt(schema: Schema, dna: seq<Byte>, rng: Rng, k: nat)
    requires k < |schema|
    requires Decode(schema, dna, rng).Ok?
    ensures SchemaBytes(schema[..k]) + FieldsBytes(schema[k].fields) <= |dna|
    ensures var r := DecodeFields(schema[k].fields, dna[SchemaBytes(schema[..k])..], rng, SchemaMutants(schema[..k]));
      && r.Ok?
      && Decode(schema, dna, rng).value[k] == DecodedGroup(schema[k].name, r.value.traits)
      && r.value.dna == dna[SchemaBytes(schema[..k]) + FieldsBytes(schema[k].fields)..]
      && r.value.drawn == SchemaMutants(schema[..k]) + FieldsMutants(schema[k].fields)
  {
    AroundIndex(schema, k);
    DecodeGroupInOrder(schema, schema[..k], schema[k], schema[k + 1..], dna, rng);
  }
}

=== FILE: decoder.dfy ===
/**
  The decode pass: walk the schema's groups in order, and for each field take
  its bytes off the front of the DNA, turn them into an offset and resolve the
  offset against the field's pool. Any failure aborts the whole pass.
 */
module Decoder {
  import opened Bytes
  import opened Errors
  import opened Wrappers
  import opened Dob
  import opened Offset
  import opened Pool

  /** Traits emitted so far, the DNA not consumed yet, and the draws taken so far. */
  datatype Step = Step(traits: seq<Trait>, dna: seq<Byte>, drawn: nat)

  /** Groups decoded so far, the DNA not consumed yet, and the draws taken so far. */
  datatype Progress = Progress(groups: seq<DecodedGroup>, dna: seq<Byte>, drawn: nat)

  /**
    One field. Running out of DNA is reported before an unaccepted length is;
    a pool-less field emits its offset, a pooled one a trait per entry.
   */
  function DecodeField(field: Field, dna: seq<Byte>, rng: Rng, drawn: nat): (r: Outcome<Step>)
    ensures |dna| < field.byteLength ==> r == Err(InsufficientDNABytes)
    ensures field.byteLength <= |dna| && !ValidByteLength(field.byteLength) ==> r == Err(InvalidDNAByteLengthSchema)
    ensures r.Ok? <==> field.byteLength <= |dna| && FieldValid(field)
    ensures r.Err? ==> IsDecodeError(r.error)
    ensures r.Ok? ==> r.value.dna == dna[field.byteLength..]
    ensures r.Ok? ==> |r.value.traits| == FieldTraits(field)
    ensures r.Ok? ==> r.value.drawn == drawn + FieldMutants(field)
    ensures r.Ok? && field.pool.None? ==>
      r.value.traits == [Number(SegmentOffset(dna[..field.byteLength]).value)]
  {
    var split :- Take(dna, field.byteLength);
    var offset :- SegmentOffset(split.segment);
    match field.pool
    case None => Ok(Step([Number(offset)], split.rest, drawn))
    case Some(pool) =>
      var resolved :- ResolvePool(offset, pool, rng, drawn);
      Ok(Step(resolved.traits, split.rest, resolved.drawn))
  }

  /**
    A pooled field with enough DNA and an accepted length ends exactly as its
    pool does, resolved from the offset of the field's own bytes: the pool's
    traits and draws when it resolves, and otherwise the pool's own error or
    panic.
   */
  lemma DecodeFieldPooled(field: Field, dna: seq<Byte>, rng: Rng, drawn: nat)
    requires field.byteLength <= |dna| && ValidByteLength(field.byteLength) && field.pool.Some?
    ensures SegmentOffset(dna[..field.byteLength]).Ok?
    ensures DecodeField(field, dna, rng, drawn)
         == match ResolvePool(SegmentOffset(dna[..field.byteLength]).value, field.pool.value, rng, drawn)
            case Ok(x) => Ok(Step(x.traits, dna[field.byteLength..], x.drawn))
            case Err(e) => Err(e)
            case Panic => Panic
  {
  }

  /** The fields of one group, in order, each consuming DNA after the one before. */
  function DecodeFields(fields: seq<Field>, dna: seq<Byte>, rng: Rng, drawn: nat): (r: Outcome<Step>)
    ensures r.Ok? <==> FieldsValid(fields) && FieldsBytes(fields) <= |dna|
    ensures r.Err? ==> IsDecodeError(r.error)
    ensures r.Ok? ==> r.value.dna == dna[FieldsBytes(fields)..]
    ensures r.Ok? ==> |r.value.traits| == FieldsTraits(fields)
    ensures r.Ok? ==> r.value.drawn == drawn + FieldsMutants(fields)
    decreases |fields|
  {
    if |fields| == 0 then Ok(Step([], dna, drawn))
    else
      assert FieldsValid(fields) <==> FieldValid(fields[0]) && FieldsValid(fields[1..]) by {
        if FieldValid(fields[0]) && FieldsValid(fields[1..]) {
          forall i | 0 <= i < |fields| ensures FieldValid(fields[i]) {
            if i > 0 {
              assert fields[i] == fields[1..][i - 1];
            }
          }
        }
      }
      var first :- DecodeField(fields[0], dna, rng, drawn);
      var rest :- DecodeFields(fields[1..], first.dna, rng, first.drawn);
      Ok(Step(first.traits + rest.traits, rest.dna, rest.drawn))
  }

  /** The groups of a schema, in order; each yields one decoded group under its own name. */
  function DecodeGroups(schema: Schema, dna: seq<Byte>, rng: Rng, drawn: nat): (r: Outcome<Progress>)
    ensures r.Ok? <==> SchemaValid(schema) && SchemaBytes(schema) <= |dna|
    ensures r.Err? ==> IsDecodeError(r.error)
    ensures r.Ok? ==> r.value.dna == dna[SchemaBytes(schema)..]
    ensures r.Ok? ==> r.value.drawn == drawn + SchemaMutants(schema)
    ensures r.Ok? ==> |r.value.groups| == |schema|
    ensures r.Ok? ==> forall i :: 0 <= i < |schema| ==>
      r.value.groups[i].name == schema[i].name && |r.value.groups[i].traits| == FieldsTraits(schema[i].fields)
    decreases |schema|
  {
    if |schema| == 0 then Ok(Progress([], dna, drawn))
    else
      assert SchemaValid(schema) <==> FieldsValid(schema[0].fields) && SchemaValid(schema[1..]) by {
        if FieldsValid(schema[0].fields) && SchemaValid(schema[1..]) {
          forall i | 0 <= i < |schema| ensures FieldsValid(schema[i].fields) {
            if i > 0 {
              assert schema[i] == schema[1..][i - 1];
            }
          }
        }
      }
      var group := schema[0];
      var decoded :- DecodeFields(group.fields, dna, rng, drawn);
      var rest :- DecodeGroups(schema[1..], decoded.dna, rng, decoded.drawn);
      Ok(Progress([DecodedGroup(group.name, decoded.traits)] + rest.groups, rest.dna, rest.drawn))
  }

  /**
    The decode pass over a whole schema, with the generator's draws counted
    from its first one. It succeeds exactly when every field is well formed and
    the DNA holds the bytes all fields take; it then yields one decoded group per
    schema group, in order, under the group's name, with one trait per
    pool-less field and per pool entry.
   */
  function Decode(schema: Schema, dna: seq<Byte>, rng: Rng): (r: Outcome<seq<DecodedGroup>>)
    ensures r.Ok? <==> SchemaValid(schema) && SchemaBytes(schema) <= |dna|
    ensures r.Err? ==> IsDecodeError(r.error)
    ensures r.Ok? ==> |r.value| == |schema|
    ensures r.Ok? ==> forall i :: 0 <= i < |schema| ==>
      r.value[i].name == schema[i].name && |r.value[i].traits| == FieldsTraits(schema[i].fields)
  {
    var progress :- DecodeGroups(schema, dna, rng, 0);
    Ok(progress.groups)
  }
}

=== FILE: decoder_properties.dfy ===
/**
  Properties relating several decode runs: extra DNA at the end changes
  nothing, only the draws the mutant entries take matter, a too-short DNA is
  reported as such, and worked examples.
 */
module DecoderProperties {
  import opened Bytes
  import opened Errors
  import opened Wrappers
  import opened Dob
  import opened Offset
  import opened Pool
  import opened Decoder

  /** `o` with `extra` appended to the DNA it leaves unconsumed. */
  function StepWithTail(o: Outcome<Step>, extra: seq<Byte>): Outcome<Step> {
    match o
    case Ok(s) => Ok(s.(dna := s.dna + extra))
    case Err(e) => Err(e)
    case Panic => Panic
  }

  function ProgressWithTail(o: Outcome<Progress>, extra: seq<Byte>): Outcome<Progress> {
    match o
    case Ok(p) => Ok(p.(dna := p.dna + extra))
    case Err(e) => Err(e)
    case Panic => Panic
  }

  lemma FieldIgnoresTail(field: Field, dna: seq<Byte>, extra: seq<Byte>, rng: Rng, drawn: nat)
    requires field.byteLength <= |dna|
    ensures DecodeField(field, dna + extra, rng, drawn) == StepWithTail(DecodeField(field, dna, rng, drawn), extra)
  {
    var n := field.byteLength;
    assert (dna + extra)[..n] == dna[..n];
    assert (dna + extra)[n..] == dna[n..] + extra;
  }

  lemma {:induction false} FieldsIgnoreTail(fields: seq<Field>, dna: seq<Byte>, extra: seq<Byte>, rng: Rng, drawn: nat)
    requires FieldsBytes(fields) <= |dna|
    ensures DecodeFields(fields, dna + extra, rng, drawn) == StepWithTail(DecodeFields(fields, dna, rng, drawn), extra)
    decreases |fields|
  {
    if |fields| > 0 {
      FieldIgnoresTail(fields[0], dna, extra, rng, drawn);
      var first := DecodeField(fields[0], dna, rng, drawn);
      if first.Ok? {
        FieldsIgnoreTail(fields[1..], first.value.dna, extra, rng, first.value.drawn);
      }
    }
  }

  lemma {:induction false} GroupsIgnoreTail(schema: Schema, dna: seq<Byte>, extra: seq<Byte>, rng: Rng, drawn: nat)
    requires SchemaBytes(schema) <= |dna|
    ensures DecodeGroups(schema, dna + extra, rng, drawn) == ProgressWithTail(DecodeGroups(schema, dna, rng, drawn), extra)
    decreases |schema|
  {
    if |schema| > 0 {
      FieldsIgnoreTail(schema[0].fields, dna, extra, rng, drawn);
      var first := DecodeFields(schema[0].fields, dna, rng, drawn);
      if first.Ok? {
        GroupsIgnoreTail(schema[1..], first.value.dna, extra, rng, first.value.drawn);
      }
    }
  }

  /**
    DNA bytes beyond those the schema takes are ignored: once the DNA is long
    enough, appending to it never changes the outcome, whether success, error
    or panic.
   */
  lemma LeftoverDnaIgnored(schema: Schema, dna: seq<Byte>, extra: seq<Byte>, rng: Rng)
    requires SchemaBytes(schema) <= |dna|
    ensures Decode(schema, dna + extra, rng) == Decode(schema, dna, rng)
  {
    GroupsIgnoreTail(schema, dna, extra, rng, 0);
  }

  /** The outcome depends on the DNA only through its first `SchemaBytes` bytes. */
  lemma DecodeReadsOnlyItsBytes(schema: Schema, dna: seq<Byte>, rng: Rng)
    requires SchemaBytes(schema) <= |dna|
    ensures Decode(schema, dna, rng) == Decode(schema, dna[..SchemaBytes(schema)], rng)
  {
    var n := SchemaBytes(schema);
    assert dna == dna[..n] + dna[n..];
    LeftoverDnaIgnored(schema, dna[..n], dna[n..], rng);
  }

  lemma {:induction false} FieldsReadOnlyTheirDraws(fields: seq<Field>, dna: seq<Byte>, rng1: Rng, rng2: Rng, drawn: nat)
    requires Agree(rng1, rng2, drawn, FieldsMutants(fields))
    ensures DecodeFields(fields, dna, rng1, drawn) == DecodeFields(fields, dna, rng2, drawn)
    decreases |fields|
  {
    if |fields| > 0 {
      var field := fields[0];
      var split := Take(dna, field.byteLength);
      if split.Ok? && SegmentOffset(split.value.segment).Ok? && field.pool.Some? {
        ResolvePoolReadsOnlyItsDraws(SegmentOffset(split.value.segment).value, field.pool.value, rng1, rng2, drawn);
      }
      var first := DecodeField(field, dna, rng1, drawn);
      assert first == DecodeField(field, dna, rng2, drawn);
      if first.Ok? {
        FieldsReadOnlyTheirDraws(fields[1..], first.value.dna, rng1, rng2, first.value.drawn);
      }
    }
  }

  lemma {:induction false} GroupsReadOnlyTheirDraws(schema: Schema, dna: seq<Byte>, rng1: Rng, rng2: Rng, drawn: nat)
    requires Agree(rng1, rng2, drawn, SchemaMutants(schema))
    ensures DecodeGroups(schema, dna, rng1, drawn) == DecodeGroups(schema, dna, rng2, drawn)
    decreases |schema|
  {
    if |schema| > 0 {
      FieldsReadOnlyTheirDraws(schema[0].fields, dna, rng1, rng2, drawn);
      var first := DecodeFields(schema[0].fields, dna, rng1, drawn);
      if first.Ok? {
        GroupsReadOnlyTheirDraws(schema[1..], first.value.dna, rng1, rng2, first.value.drawn);
      }
    }
  }

  /**
    The generator is read only through the first `SchemaMutants` draws: two
    generators that agree on those give the same outcome. In particular a
    schema without mutant entries decodes independently of the seed.
   */
  lemma DecodeReadsOnlyMutantDraws(schema: Schema, dna: seq<Byte>, rng1: Rng, rng2: Rng)
    requires Agree(rng1, rng2, 0, SchemaMutants(schema))
    ensures Decode(schema, dna, rng1) == Decode(schema, dna, rng2)
  {
    GroupsReadOnlyTheirDraws(schema, dna, rng1, rng2, 0);
  }

  lemma {:induction false} FieldsRunOut(fields: seq<Field>, dna: seq<Byte>, rng: Rng, drawn: nat)
    requires FieldsValid(fields) && |dna| < FieldsBytes(fields)
    ensures DecodeFields(fields, dna, rng, drawn) == Err(InsufficientDNABytes)
    decreases |fields|
  {
    var first := DecodeField(fields[0], dna, rng, drawn);
    assert FieldValid(fields[0]);
    if first.Ok? {
      assert FieldsValid(fields[1..]) by {
        forall i | 0 <= i < |fields[1..]| ensures FieldValid(fields[1..][i]) {
          assert fields[1..][i] == fields[i + 1];
        }
      }
      FieldsRunOut(fields[1..], first.value.dna, rng, first.value.drawn);
    }
  }

  lemma {:induction false} GroupsRunOut(schema: Schema, dna: seq<Byte>, rng: Rng, drawn: nat)
    requires SchemaValid(schema) && |dna| < SchemaBytes(schema)
    ensures DecodeGroups(schema, dna, rng, drawn) == Err(InsufficientDNABytes)
    decreases |schema|
  {
    assert FieldsValid(schema[0].fields);
    if |dna| < FieldsBytes(schema[0].fields) {
      FieldsRunOut(schema[0].fields, dna, rng, drawn);
    } else {
      var first := DecodeFields(schema[0].fields, dna, rng, drawn);
      assert SchemaValid(schema[1..]) by {
        forall i | 0 <= i < |schema[1..]| ensures FieldsValid(schema[1..][i].fields) {
          assert schema[1..][i] == schema[i + 1];
        }
      }
      GroupsRunOut(schema[1..], first.value.dna, rng, first.value.drawn);
    }
  }

  /**
    With a well-formed schema, a DNA shorter than the bytes all fields take
    fails with `InsufficientDNABytes` and with nothing else.
   */
  lemma ShortDnaIsInsufficient(schema: Schema, dna: seq<Byte>, rng: Rng)
    requires SchemaValid(schema) && |dna| < SchemaBytes(schema)
    ensures Decode(schema, dna, rng) == Err(InsufficientDNABytes)
  {
    GroupsRunOut(schema, dna, rng, 0);
  }

  /** A generator whose `k`-th draw is `k`. */
  function CountingRng(): Rng {
    (k: nat) => if k < TWO_TO_THE_64 then k else 0
  }

  /** A one-group schema decodes as its fields do, from any draw count. */
  lemma SingleGroup(g: Group, dna: seq<Byte>, rng: Rng, drawn: nat)
    ensures DecodeGroups([g], dna, rng, drawn)
         == match DecodeFields(g.fields, dna, rng, drawn)
            case Ok(s) => Ok(Progress([DecodedGroup(g.name, s.traits)], s.dna, s.drawn))
            case Err(e) => Err(e)
            case Panic => Panic
  {
    assert [g][1..] == [];
    var o := DecodeFields(g.fields, dna, rng, drawn);
    if o.Ok? {
      assert [DecodedGroup(g.name, o.value.traits)] + [] == [DecodedGroup(g.name, o.value.traits)];
    }
  }

  /** The decode of a one-group schema, in terms of its fields' decode. */
  lemma OneGroup(name: string, fields: seq<Field>, dna: seq<Byte>, rng: Rng)
    ensures Decode([Group(name, fields)], dna, rng)
         == match DecodeFields(fields, dna, rng, 0)
            case Ok(s) => Ok([DecodedGroup(name, s.traits)])
            case Err(e) => Err(e)
            case Panic => Panic
  {
    SingleGroup(Group(name, fields), dna, rng, 0);
  }

  /** The decode of a one-field group, in terms of that field's decode. */
  lemma OneField(field: Field, dna: seq<Byte>, rng: Rng, drawn: nat)
    ensures DecodeFields([field], dna, rng, drawn) == DecodeField(field, dna, rng, drawn)
  {
    assert [field][1..] == [];
    var r := DecodeField(field, dna, rng, drawn);
    if r.Ok? {
      assert r.value.traits + [] == r.value.traits;
    }
  }

  /** The resolution of a one-entry pool, in terms of that entry's resolution. */
  lemma OneEntry(offset: U64, entry: PoolEntry, rng: Rng, drawn: nat)
    ensures ResolvePool(offset, [entry], rng, drawn)
         == match ResolveEntry(offset, entry, rng, drawn)
            case Ok(s) => Ok(Resolutions([s.emitted], s.drawn))
            case Err(e) => Err(e)
            case Panic => Panic
  {
    assert [entry][1..] == [];
    var r := ResolveEntry(offset, entry, rng, drawn);
    if r.Ok? {
      assert ResolvePool(offset, [], rng, r.value.drawn) == Ok(Resolutions([], r.value.drawn));
      assert [r.value.emitted] + [] == [r.value.emitted];
    }
  }

  /** One pool-less byte: the offset itself. */
  lemma ExamplePlainByte(rng: Rng)
    ensures Decode([Group("Size", [Field(1, None)])], [0x0A], rng)
         == Ok([DecodedGroup("Size", [Number(10)])])
  {
    OneGroup("Size", [Field(1, None)], [0x0A], rng);
    OneField(Field(1, None), [0x0A], rng, 0);
    assert [0x0A][..1] == [0x0A];
  }

  /** Two little-endian bytes `01 00` give offset 1, selecting the second string. */
  lemma ExampleStringSet(rng: Rng)
    ensures Decode([Group("Color", [Field(2, Some([StringVec(["Red", "Green", "Blue"])]))])], [0x01, 0x00], rng)
         == Ok([DecodedGroup("Color", [String("Green")])])
  {
    var entry := StringVec(["Red", "Green", "Blue"]);
    var color := Field(2, Some([entry]));
    OneGroup("Color", [color], [0x01, 0x00], rng);
    OneField(color, [0x01, 0x00], rng, 0);
    assert [0x01, 0x00][..2] == [0x01, 0x00];
    assert SegmentOffset([0x01, 0x00]) == Ok(1) by {
      OffsetExamples();
    }
    OneEntry(1, entry, rng, 0);
  }

  /** Offset 5 in the range [10, 20) gives 15. */
  lemma ExampleNumberRange(rng: Rng)
    ensures Decode([Group("Level", [Field(1, Some([NumberRange(10, 20)]))])], [0x05], rng)
         == Ok([DecodedGroup("Level", [Number(15)])])
  {
    var level := Field(1, Some([NumberRange(10, 20)]));
    OneGroup("Level", [level], [0x05], rng);
    OneField(level, [0x05], rng, 0);
    assert [0x05][..1] == [0x05];
    OneEntry(5, NumberRange(10, 20), rng, 0);
  }

  /** A two-entry pool emits two traits from the same offset. */
  lemma ExampleTwoEntries(rng: Rng)
    ensures Decode([Group("Mix", [Field(1, Some([NumberVec([7, 8]), FloatRange(0, 4, 10)]))])], [0x03], rng)
         == Ok([DecodedGroup("Mix", [Number(8), Float(3, 10)])])
  {
    var pool := [NumberVec([7, 8]), FloatRange(0, 4, 10)];
    var mix := Field(1, Some(pool));
    OneGroup("Mix", [mix], [0x03], rng);
    OneField(mix, [0x03], rng, 0);
    assert [0x03][..1] == [0x03];
    assert pool[1..] == [FloatRange(0, 4, 10)];
    assert ResolveEntry(3, NumberVec([7, 8]), rng, 0) == Ok(Resolved(Number(8), 0));
    assert ResolveEntry(3, FloatRange(0, 4, 10), rng, 0) == Ok(Resolved(Float(3, 10), 0));
    OneEntry(3, FloatRange(0, 4, 10), rng, 0);
    assert ResolvePool(3, pool[1..], rng, 0) == Ok(Resolutions([Float(3, 10)], 0));
    assert [Number(8)] + [Float(3, 10)] == [Number(8), Float(3, 10)];
    assert ResolvePool(3, pool, rng, 0) == Ok(Resolutions([Number(8), Float(3, 10)], 0));
    assert DecodeField(mix, [0x03], rng, 0) == Ok(Step([Number(8), Float(3, 10)], [], 0));
  }

  /** Worked examples of decodes that fail on the DNA's length or a field's byte length. */
  lemma ExampleLengthFailures(rng: Rng)
    ensures Decode([Group("Size", [Field(1, None)])], [], rng) == Err(InsufficientDNABytes)
    ensures Decode([Group("Odd", [Field(3, None)])], [1, 2, 3], rng) == Err(InvalidDNAByteLengthSchema)
    ensures Decode([Group("Odd", [Field(3, None)])], [1, 2], rng) == Err(InsufficientDNABytes)
    ensures Decode([Group("Odd", [Field(0, None)])], [], rng) == Err(InvalidDNAByteLengthSchema)
  {
    OneGroup("Size", [Field(1, None)], [], rng);
    OneField(Field(1, None), [], rng, 0);
    OneGroup("Odd", [Field(3, None)], [1, 2, 3], rng);
    OneField(Field(3, None), [1, 2, 3], rng, 0);
    OneGroup("Odd", [Field(3, None)], [1, 2], rng);
    OneField(Field(3, None), [1, 2], rng, 0);
    OneGroup("Odd", [Field(0, None)], [], rng);
    OneField(Field(0, None), [], rng, 0);
  }

  /** Worked examples of decodes that fail on a pool entry: an empty set, an empty range, an empty mutant range. */
  lemma ExamplePoolFailures(rng: Rng)
    ensures Decode([Group("Color", [Field(1, Some([StringVec([])]))])], [0x00], rng) == Err(InvalidDNASetSchema)
    ensures Decode([Group("Range", [Field(1, Some([NumberRange(5, 4)]))])], [0x00], rng) == Err(InvalidDNARangeSchema)
    ensures Decode([Group("Range", [Field(1, Some([MutantRange(4, 4)]))])], [0x00], rng) == Panic
  {
    OneGroup("Color", [Field(1, Some([StringVec([])]))], [0x00], rng);
    OneField(Field(1, Some([StringVec([])])), [0x00], rng, 0);
    OneEntry(0, StringVec([]), rng, 0);
    OneGroup("Range", [Field(1, Some([NumberRange(5, 4)]))], [0x00], rng);
    OneField(Field(1, Some([NumberRange(5, 4)])), [0x00], rng, 0);
    OneEntry(0, NumberRange(5, 4), rng, 0);
    OneGroup("Range", [Field(1, Some([MutantRange(4, 4)]))], [0x00], rng);
    OneField(Field(1, Some([MutantRange(4, 4)])), [0x00], rng, 0);
    OneEntry(0, MutantRange(4, 4), rng, 0);
  }

  /** The decode of two fields, in terms of theirs. */
  lemma TwoFields(f1: Field, f2: Field, dna: seq<Byte>, rng: Rng)
    requires DecodeField(f1, dna, rng, 0).Ok?
    ensures var first := DecodeField(f1, dna, rng, 0).value;
      DecodeFields([f1, f2], dna, rng, 0)
      == match DecodeField(f2, first.dna, rng, first.drawn)
         case Ok(s) => Ok(Step(first.traits + s.traits, s.dna, s.drawn))
         case Err(e) => Err(e)
         case Panic => Panic
  {
    var first := DecodeField(f1, dna, rng, 0).value;
    assert [f1, f2][1..] == [f2];
    OneField(f2, first.dna, rng, first.drawn);
  }

  /** A one-byte field with a one-entry pool, on a zero byte. */
  lemma ZeroByteField(entry: PoolEntry, rest: seq<Byte>, rng: Rng, drawn: nat)
    ensures DecodeField(Field(1, Some([entry])), [0] + rest, rng, drawn)
         == match ResolveEntry(0, entry, rng, drawn)
            case Ok(s) => Ok(Step([s.emitted], rest, s.drawn))
            case Err(e) => Err(e)
            case Panic => Panic
  {
    assert ([0] + rest)[..1] == [0] && ([0] + rest)[1..] == rest;
    assert SegmentOffset([0]) == Ok(0);
    OneEntry(0, entry, rng, drawn);
  }

  /** The mutant set field below, at draw 0 and at draw 1, on a zero byte. */
  lemma MutantVecOnZero(rng: Rng)
    requires rng(0) == 0 && rng(1) == 1
    ensures DecodeField(Field(1, Some([MutantVec([10, 20])])), [0, 0], rng, 0) == Ok(Step([Number(10)], [0], 1))
    ensures DecodeField(Field(1, Some([MutantVec([10, 20])])), [0], rng, 1) == Ok(Step([Number(20)], [], 2))
  {
    assert [0, 0] == [0] + [0] && [0] == [0] + [];
    var entry := MutantVec([10, 20]);
    assert ResolveEntry(0, entry, rng, 0) == Ok(Resolved(Number(10), 1)) by {
      assert WrappingAdd(0, 0) == 0;
    }
    assert ResolveEntry(0, entry, rng, 1) == Ok(Resolved(Number(20), 2)) by {
      assert WrappingAdd(0, 1) == 1;
    }
    ZeroByteField(entry, [0], rng, 0);
    ZeroByteField(entry, [], rng, 1);
  }

  /** The mutant range field below, at draw 0 and at draw 1, on a zero byte. */
  lemma MutantRangeOnZero(rng: Rng)
    requires rng(0) == 0 && rng(1) == 1
    ensures DecodeField(Field(1, Some([MutantRange(0, 100)])), [0, 0], rng, 0) == Ok(Step([Number(0)], [0], 1))
    ensures DecodeField(Field(1, Some([MutantRange(0, 100)])), [0], rng, 1) == Ok(Step([Number(1)], [], 2))
  {
    assert [0, 0] == [0] + [0] && [0] == [0] + [];
    var entry := MutantRange(0, 100);
    assert ResolveEntry(0, entry, rng, 0) == Ok(Resolved(Number(0), 1)) by {
      assert WrappingAdd(0, 0) == 0;
    }
    assert ResolveEntry(0, entry, rng, 1) == Ok(Resolved(Number(1), 2)) by {
      assert WrappingAdd(0, 1) == 1;
    }
    ZeroByteField(entry, [0], rng, 0);
    ZeroByteField(entry, [], rng, 1);
  }

  /**
    Draw order is observable: the same two mutant fields in the opposite order
    take their draws in the opposite order and decode to different traits.
   */
  lemma MutantOrderMatters()
    ensures Decode([Group("M", [Field(1, Some([MutantVec([10, 20])])), Field(1, Some([MutantRange(0, 100)]))])], [0, 0], CountingRng())
         == Ok([DecodedGroup("M", [Number(10), Number(1)])])
    ensures Decode([Group("M", [Field(1, Some([MutantRange(0, 100)])), Field(1, Some([MutantVec([10, 20])]))])], [0, 0], CountingRng())
         == Ok([DecodedGroup("M", [Number(0), Number(20)])])
  {
    var rng := CountingRng();
    var vec := Field(1, Some([MutantVec([10, 20])]));
    var range := Field(1, Some([MutantRange(0, 100)]));
    var dna: seq<Byte> := [0, 0];
    assert rng(0) == 0 && rng(1) == 1;
    MutantVecOnZero(rng);
    MutantRangeOnZero(rng);
    TwoFields(vec, range, dna, rng);
    assert [Number(10)] + [Number(1)] == [Number(10), Number(1)];
    OneGroup("M", [vec, range], dna, rng);
    TwoFields(range, vec, dna, rng);
    assert [Number(0)] + [Number(20)] == [Number(0), Number(20)];
    OneGroup("M", [range, vec], dna, rng);
  }
}

=== FILE: dob.dfy ===
/**
  The trait schema the decoder reads (an ordered list of named trait groups),
  the traits it emits, and the measures the decoder's contracts are stated in:
  how many DNA bytes a schema takes, how many traits and RNG draws it yields,
  and when it is well formed.
 */
module Dob {
  import opened Bytes
  import opened Errors
  import opened Wrappers

  /** One entry of a field's trait pool: one constructor per arm of the schema's trait-type union. */
  datatype PoolEntry =
    | StringVec(strings: seq<string>)
    | NumberVec(numbers: seq<U64>)
    | FloatVec(numerators: seq<U64>, denominator: U64)
    | MutantVec(mutants: seq<U64>)
    | NumberRange(lower: U64, upper: U64)
    | FloatRange(lower: U64, upper: U64, denominator: U64)
    | MutantRange(lower: U64, upper: U64)
  {
    /** The set kinds pick one element of a list. */
    predicate IsSet() {
      StringVec? || NumberVec? || FloatVec? || MutantVec?
    }

    /** The range kinds compute a value between two bounds. */
    predicate IsRange() {
      NumberRange? || FloatRange? || MutantRange?
    }

    /** The mutant kinds perturb the offset with one random draw. */
    predicate IsMutant() {
      MutantVec? || MutantRange?
    }

    /** Number of elements a set kind chooses from. */
    function SetSize(): nat
      requires IsSet()
    {
      match this
      case StringVec(strings) => |strings|
      case NumberVec(numbers) => |numbers|
      case FloatVec(numerators, _) => |numerators|
      case MutantVec(mutants) => |mutants|
    }

    /** The trait a set kind emits when it picks element `i`. */
    function SetElement(i: nat): Trait
      requires IsSet() && i < SetSize()
    {
      match this
      case StringVec(strings) => String(strings[i])
      case NumberVec(numbers) => Number(numbers[i])
      case FloatVec(numerators, denominator) => Float(numerators[i], denominator)
      case MutantVec(mutants) => Number(mutants[i])
    }

    /** An entry that resolves without error or panic. */
    predicate Valid() {
      if IsSet() then SetSize() > 0 else lower < upper
    }
  }

  /** How a field's bytes are consumed and interpreted. */
  datatype Field = Field(byteLength: nat, pool: Option<seq<PoolEntry>>)

  /** A named, ordered list of fields. */
  datatype Group = Group(name: string, fields: seq<Field>)

  type Schema = seq<Group>

  /** A decoded trait. A float is kept as the exact pair the program divides. */
  datatype Trait =
    | String(text: string)
    | Number(number: U64)
    | Float(numerator: U64, denominator: U64)

  /** The decoded traits of one schema group, under the group's name. */
  datatype DecodedGroup = DecodedGroup(name: string, traits: seq<Trait>)

  /** The segment lengths the offset rule accepts. */
  predicate ValidByteLength(n: nat) {
    n == 1 || n == 2 || n == 4 || n == 8
  }

  predicate PoolValid(pool: seq<PoolEntry>) {
    forall i :: 0 <= i < |pool| ==> pool[i].Valid()
  }

  predicate FieldValid(f: Field) {
    ValidByteLength(f.byteLength) && (f.pool.Some? ==> PoolValid(f.pool.value))
  }

  predicate FieldsValid(fields: seq<Field>) {
    forall i :: 0 <= i < |fields| ==> FieldValid(fields[i])
  }

  /** Every field has an accepted length and every pool entry resolves. */
  predicate SchemaValid(schema: Schema) {
    forall i :: 0 <= i < |schema| ==> FieldsValid(schema[i].fields)
  }

  /** DNA bytes the fields take, in total. */
  function FieldsBytes(fields: seq<Field>): nat {
    if |fields| == 0 then 0 else fields[0].byteLength + FieldsBytes(fields[1..])
  }

  /** DNA bytes the schema takes, in total. */
  function SchemaBytes(schema: Schema): nat {
    if |schema| == 0 then 0 else FieldsBytes(schema[0].fields) + SchemaBytes(schema[1..])
  }

  /** Mutant entries in a pool: the RNG draws it consumes. */
  function PoolMutants(pool: seq<PoolEntry>): nat {
    if |pool| == 0 then 0 else (if pool[0].IsMutant() then 1 else 0) + PoolMutants(pool[1..])
  }

  function FieldMutants(f: Field): nat {
    if f.pool.Some? then PoolMutants(f.pool.value) else 0
  }

  function FieldsMutants(fields: seq<Field>): nat {
    if |fields| == 0 then 0 else FieldMutants(fields[0]) + FieldsMutants(fields[1..])
  }

  /** Mutant entries in the whole schema: the RNG draws a successful decode consumes. */
  function SchemaMutants(schema: Schema): nat {
    if |schema| == 0 then 0 else FieldsMutants(schema[0].fields) + SchemaMutants(schema[1..])
  }

  /** Traits a field emits: its offset alone, or one per pool entry. */
  function FieldTraits(f: Field): nat {
    if f.pool.Some? then |f.pool.value| else 1
  }

  function FieldsTraits(fields: seq<Field>): nat {
    if |fields| == 0 then 0 else FieldTraits(fields[0]) + FieldsTraits(fields[1..])
  }
}

=== FILE: entry.dfy ===
/**
  The program's entry point: check the argument count and the hex arguments'
  lengths, hand the arguments to the parsers, then run the decode pass.

  The parsers and the generator's seeding are library code outside this
  model; they are passed in as `Collaborators`, and only the checks the
  program makes itself, and the order they run in, are modelled.
 */
module Entry {
  import opened Bytes
  import opened Errors
  import opened Wrappers
  import opened Dob
  import opened Pool
  import opened Decoder
  import opened DecoderProperties

  /** The library calls the entry point delegates to. */
  datatype Collaborators = Collaborators(
    /** Hex text to bytes; `None` when the text is not hex. */
    hexDecode: seq<Byte> -> Option<seq<Byte>>,
    /** Decimal text to a `u64` seed; `None` when it does not parse. */
    parseSeed: seq<Byte> -> Option<U64>,
    /** Schema bytes to a schema; `None` when they are not a well-formed schema encoding. */
    parseSchema: seq<Byte> -> Option<Schema>,
    /** The draws of the generator seeded with a given seed. */
    seed: U64 -> Rng)

  /** The three parsed inputs of a decode. */
  datatype Inputs = Inputs(dna: seq<Byte>, seed: U64, schema: Schema)

  predicate Even(n: nat) {
    n % 2 == 0
  }

  /** The argument count is right and the DNA and seed arguments have parsed. */
  predicate DnaAndSeedParse(argv: seq<seq<Byte>>, c: Collaborators) {
    && |argv| == 4
    && Even(|argv[1]|) && c.hexDecode(argv[1]).Some?
    && c.parseSeed(argv[2]).Some?
  }

  /**
    The argument checks. `argv` is the whole argument vector, program name
    first, so `|argv|` is `argc`; the DNA, seed and schema are `argv[1..4]`.
    The count is checked before anything else, the DNA text before the seed,
    the seed before the schema text; only argument errors arise here.
   */
  function ParseArgs(argv: seq<seq<Byte>>, c: Collaborators): (r: Outcome<Inputs>)
    ensures !r.Panic?
    ensures r.Err? ==> IsArgumentError(r.error)
    ensures |argv| != 4 ==> r == Err(UnexpectedArgCount)
    ensures |argv| == 4 && !Even(|argv[1]|) ==> r == Err(UnexpectedArgBytesLength)
    ensures |argv| == 4 && Even(|argv[1]|) && c.hexDecode(argv[1]).None? ==> r == Err(InvalidArgFormat)
    ensures |argv| == 4 && Even(|argv[1]|) && c.hexDecode(argv[1]).Some? && c.parseSeed(argv[2]).None?
      ==> r == Err(InvalidArgFormat)
    ensures DnaAndSeedParse(argv, c) && !Even(|argv[3]|) ==> r == Err(UnexpectedArgBytesLength)
    ensures DnaAndSeedParse(argv, c) && Even(|argv[3]|) && c.hexDecode(argv[3]).None? ==> r == Err(InvalidArgFormat)
    ensures (DnaAndSeedParse(argv, c) && Even(|argv[3]|) && c.hexDecode(argv[3]).Some?
             && c.parseSchema(c.hexDecode(argv[3]).value).None?)
      ==> r == Err(InvalidArgMolFormat)
    ensures r.Ok? <==>
      && DnaAndSeedParse(argv, c)
      && Even(|argv[3]|) && c.hexDecode(argv[3]).Some?
      && c.parseSchema(c.hexDecode(argv[3]).value).Some?
    ensures r.Ok? ==>
      && |argv| == 4
      && Even(|argv[1]|) && Even(|argv[3]|)
      && c.hexDecode(argv[1]) == Some(r.value.dna)
      && c.parseSeed(argv[2]) == Some(r.value.seed)
      && c.hexDecode(argv[3]).Some?
      && c.parseSchema(c.hexDecode(argv[3]).value) == Some(r.value.schema)
  {
    if |argv| != 4 then Err(UnexpectedArgCount)
    else
      var params := argv[1..];
      if !Even(|params[0]|) then Err(UnexpectedArgBytesLength)
      else match c.hexDecode(params[0])
      case None => Err(InvalidArgFormat)
      case Some(dna) =>
        match c.parseSeed(params[1])
        case None => Err(InvalidArgFormat)
        case Some(seed) =>
          if !Even(|params[2]|) then Err(UnexpectedArgBytesLength)
          else match c.hexDecode(params[2])
          case None => Err(InvalidArgFormat)
          case Some(schemaBytes) =>
            match c.parseSchema(schemaBytes)
            case None => Err(InvalidArgMolFormat)
            case Some(schema) => Ok(Inputs(dna, seed, schema))
  }

  /**
    The whole program: the decoded groups, or the error or panic that ends it.
    An argument error is reported exactly when the argument checks fail;
    otherwise the outcome is the decode pass over the parsed inputs, with the
    generator seeded from the parsed seed.
   */
  function DobsDecode(argv: seq<seq<Byte>>, c: Collaborators): (r: Outcome<seq<DecodedGroup>>)
    ensures |argv| != 4 ==> r == Err(UnexpectedArgCount)
    ensures (r.Err? && IsArgumentError(r.error)) <==> !ParseArgs(argv, c).Ok?
    ensures !ParseArgs(argv, c).Ok? ==> r == Err(ParseArgs(argv, c).error)
    ensures ParseArgs(argv, c).Ok? ==>
      var inputs := ParseArgs(argv, c).value;
      r == Decode(inputs.schema, inputs.dna, c.seed(inputs.seed))
  {
    var inputs :- ParseArgs(argv, c);
    Decode(inputs.schema, inputs.dna, c.seed(inputs.seed))
  }

  /**
    An odd-length schema text is reported as such once the DNA and seed
    arguments have parsed, whatever the schema parser would make of it.
   */
  lemma OddSchemaTextRejected(argv: seq<seq<Byte>>, c: Collaborators)
    requires |argv| == 4 && Even(|argv[1]|)
    requires c.hexDecode(argv[1]).Some? && c.parseSeed(argv[2]).Some?
    requires !Even(|argv[3]|)
    ensures DobsDecode(argv, c) == Err(UnexpectedArgBytesLength)
  {
  }

  /** A decode that got past the argument checks ends with a code from 5 to 8, a panic, or success. */
  lemma DecodePhaseOutcomes(argv: seq<seq<Byte>>, c: Collaborators)
    requires ParseArgs(argv, c).Ok?
    ensures var r := DobsDecode(argv, c);
      r.Err? ==> 5 <= Code(r.error) <= 8
  {
  }

  /**
    The hex decoder as the code's zero-length destinations leave it: its
    verdict on a text survives, its bytes do not.
   */
  function BlindHex(c: Collaborators): (b: Collaborators)
    ensures forall t :: b.hexDecode(t).Some? == c.hexDecode(t).Some?
    ensures forall t :: b.hexDecode(t).Some? ==> b.hexDecode(t) == Some([])
    ensures b.parseSeed == c.parseSeed && b.parseSchema == c.parseSchema && b.seed == c.seed
  {
    c.(hexDecode := (t: seq<Byte>) => if c.hexDecode(t).Some? then Some([]) else None)
  }

  /**
    The argument checks as the code writes them. Each hex argument is decoded
    into a vector made by `Vec::with_capacity`, which has length zero; the
    vector is passed as a zero-length slice, so the decoder can write none of
    the decoded bytes into it and it stays empty. Only the decoder's verdict
    on the text survives: the DNA is empty, and the schema is parsed from no
    bytes at all. These are the intended checks run with `BlindHex(c)`.
   */
  function ParseArgsAsWritten(argv: seq<seq<Byte>>, c: Collaborators): (r: Outcome<Inputs>)
    ensures !r.Panic?
    ensures r.Err? ==> IsArgumentError(r.error)
    ensures r.Ok? ==> r.value.dna == [] && c.parseSchema([]) == Some(r.value.schema)
    ensures r.Ok? ==> DnaAndSeedParse(argv, c) && Even(|argv[3]|) && c.hexDecode(argv[3]).Some?
    ensures r == ParseArgs(argv, BlindHex(c))
  {
    if |argv| != 4 then Err(UnexpectedArgCount)
    else
      var params := argv[1..];
      if !Even(|params[0]|) then Err(UnexpectedArgBytesLength)
      else match c.hexDecode(params[0])
      case None => Err(InvalidArgFormat)
      case Some(_) =>
        match c.parseSeed(params[1])
        case None => Err(InvalidArgFormat)
        case Some(seed) =>
          if !Even(|params[2]|) then Err(UnexpectedArgBytesLength)
          else match c.hexDecode(params[2])
          case None => Err(InvalidArgFormat)
          case Some(_) =>
            match c.parseSchema([])
            case None => Err(InvalidArgMolFormat)
            case Some(schema) => Ok(Inputs([], seed, schema))
  }

  /**
    The whole program as the code writes it: the intended program run with
    `BlindHex(c)`, so the decode pass runs on the empty DNA.
   */
  function DobsDecodeAsWritten(argv: seq<seq<Byte>>, c: Collaborators): (r: Outcome<seq<DecodedGroup>>)
    ensures ParseArgsAsWritten(argv, c).Ok? ==>
      var inputs := ParseArgsAsWritten(argv, c).value;
      r == Decode(inputs.schema, [], c.seed(inputs.seed))
    ensures !ParseArgsAsWritten(argv, c).Ok? ==> r.Err? && IsArgumentError(r.error)
    ensures r == DobsDecode(argv, BlindHex(c))
  {
    var inputs :- ParseArgsAsWritten(argv, c);
    Decode(inputs.schema, inputs.dna, c.seed(inputs.seed))
  }

  /**
    As written, the supplied DNA never reaches the decode pass. So if the
    schema parser makes, from no bytes, a well-formed schema that takes any
    bytes at all, the decode fails with `InsufficientDNABytes`, whatever DNA
    was given.
   */
  lemma AsWrittenDecodesNoDna(argv: seq<seq<Byte>>, c: Collaborators)
    requires ParseArgsAsWritten(argv, c).Ok?
    requires var schema := ParseArgsAsWritten(argv, c).value.schema;
      SchemaValid(schema) && SchemaBytes(schema) > 0
    ensures DobsDecodeAsWritten(argv, c) == Err(InsufficientDNABytes)
  {
    var inputs := ParseArgsAsWritten(argv, c).value;
    ShortDnaIsInsufficient(inputs.schema, [], c.seed(inputs.seed));
  }

  /**
    As written, the DNA and schema texts reach the outcome only through their
    parity and the hex decoder's verdict on them, whatever the schema parser
    does: two argument vectors with the same seed text whose DNA texts, and
    whose schema texts, agree in both end the same way.
   */
  lemma AsWrittenIgnoresTexts(argv: seq<seq<Byte>>, argv': seq<seq<Byte>>, c: Collaborators)
    requires |argv| == 4 == |argv'|
    requires argv[2] == argv'[2]
    requires Even(|argv[1]|) == Even(|argv'[1]|)
    requires c.hexDecode(argv[1]).Some? == c.hexDecode(argv'[1]).Some?
    requires Even(|argv[3]|) == Even(|argv'[3]|)
    requires c.hexDecode(argv[3]).Some? == c.hexDecode(argv'[3]).Some?
    ensures DobsDecodeAsWritten(argv, c) == DobsDecodeAsWritten(argv', c)
  {
  }

  /** A hex decoder that knows three texts, `0a`, `0b` and `01`, for the concrete case below. */
  function SmallHex(text: seq<Byte>): Option<seq<Byte>> {
    if text == [0x30, 0x61] then Some([0x0A])
    else if text == [0x30, 0x62] then Some([0x0B])
    else if text == [0x30, 0x31] then Some([0x01])
    else None
  }

  /** The schema of one pool-less one-byte field. */
  function OneByteSchema(): Schema {
    [Group("Size", [Field(1, None)])]
  }

  /**
    Collaborators for the concrete case below: the schema bytes `01` parse to
    `OneByteSchema()`, and no other bytes parse.
   */
  function OneByteSchemaParsers(): Collaborators {
    Collaborators(
      SmallHex,
      (text: seq<Byte>) => Some(0),
      (bytes: seq<Byte>) => if bytes == [0x01] then Some(OneByteSchema()) else None,
      (seed: U64) => CountingRng())
  }

  /** The pool-less one-byte field decodes the byte `0b` to 11. */
  lemma PlainByte0B(rng: Rng)
    ensures Decode(OneByteSchema(), [0x0B], rng) == Ok([DecodedGroup("Size", [Number(11)])])
  {
    OneGroup("Size", [Field(1, None)], [0x0B], rng);
    OneField(Field(1, None), [0x0B], rng, 0);
    assert [0x0B][..1] == [0x0B];
  }

  /**
    Inputs on which the code as written and the intended code disagree: DNA
    `0a` or `0b` with schema text `01`, which parses to one pool-less
    one-byte field. The intended decode reads the byte, giving `Number(10)`
    and `Number(11)`. As written, both end the same way: the schema parser
    sees no bytes, and the program fails with `InvalidArgMolFormat`.
   */
  lemma DnaDiscardedExample()
    ensures var argvA: seq<seq<Byte>> := [[], [0x30, 0x61], [0x37], [0x30, 0x31]];
      var argvB: seq<seq<Byte>> := [[], [0x30, 0x62], [0x37], [0x30, 0x31]];
      && DobsDecode(argvA, OneByteSchemaParsers()) == Ok([DecodedGroup("Size", [Number(10)])])
      && DobsDecode(argvB, OneByteSchemaParsers()) == Ok([DecodedGroup("Size", [Number(11)])])
      && DobsDecodeAsWritten(argvA, OneByteSchemaParsers()) == Err(InvalidArgMolFormat)
      && DobsDecodeAsWritten(argvB, OneByteSchemaParsers()) == Err(InvalidArgMolFormat)
  {
    var argvA: seq<seq<Byte>> := [[], [0x30, 0x61], [0x37], [0x30, 0x31]];
    var argvB: seq<seq<Byte>> := [[], [0x30, 0x62], [0x37], [0x30, 0x31]];
    var c := OneByteSchemaParsers();
    assert c.hexDecode(argvA[1]) == Some([0x0A]);
    assert c.hexDecode(argvB[1]) == Some([0x0B]);
    assert c.hexDecode(argvA[3]) == Some([0x01]);
    assert ParseArgs(argvA, c) == Ok(Inputs([0x0A], 0, OneByteSchema()));
    assert ParseArgs(argvB, c) == Ok(Inputs([0x0B], 0, OneByteSchema()));
    ExamplePlainByte(CountingRng());
    PlainByte0B(CountingRng());
    assert c.parseSchema([]) == None;
    assert ParseArgsAsWritten(argvA, c) == Err(InvalidArgMolFormat);
    AsWrittenIgnoresTexts(argvA, argvB, c);
  }
}

=== FILE: errors.dfy ===
/**
  The decoder's error kinds with their fixed numeric codes, and the result
  type every decoding step returns.
 */
module Errors {
  import opened Wrappers

  /** The error kinds, in declaration order; each one is terminal. */
  datatype Error =
    | UnexpectedArgCount
    | UnexpectedArgBytesLength
    | InvalidArgFormat
    | InvalidArgMolFormat
    | InsufficientDNABytes
    | InvalidDNASetSchema
    | InvalidDNAByteLengthSchema
    | InvalidDNARangeSchema

  /** The `u64` discriminant of each error: 1 for the first kind, then one more per kind. */
  function Code(e: Error): (c: nat)
    ensures 1 <= c <= 8
  {
    match e
    case UnexpectedArgCount => 1
    case UnexpectedArgBytesLength => 2
    case InvalidArgFormat => 3
    case InvalidArgMolFormat => 4
    case InsufficientDNABytes => 5
    case InvalidDNASetSchema => 6
    case InvalidDNAByteLengthSchema => 7
    case InvalidDNARangeSchema => 8
  }

  /** Errors about the program's arguments, raised before any DNA is decoded. */
  predicate IsArgumentError(e: Error) {
    Code(e) <= 4
  }

  /** Errors the decode pass raises: about the DNA or the schema's fields and pools. */
  predicate IsDecodeError(e: Error) {
    Code(e) >= 5
  }

  /** The error whose code is `c`, if any. */
  function ErrorOfCode(c: nat): (r: Option<Error>)
    ensures r.Some? <==> 1 <= c <= 8
  {
    if c == 1 then Some(UnexpectedArgCount)
    else if c == 2 then Some(UnexpectedArgBytesLength)
    else if c == 3 then Some(InvalidArgFormat)
    else if c == 4 then Some(InvalidArgMolFormat)
    else if c == 5 then Some(InsufficientDNABytes)
    else if c == 6 then Some(InvalidDNASetSchema)
    else if c == 7 then Some(InvalidDNAByteLengthSchema)
    else if c == 8 then Some(InvalidDNARangeSchema)
    else None
  }

  /** Every error kind is named back by its own code. */
  lemma CodeRoundTrip(e: Error)
    ensures ErrorOfCode(Code(e)) == Some(e)
  {
  }

  /** Every code in 1..8 names the kind whose code it is. */
  lemma ErrorOfCodeRoundTrip(c: nat)
    requires 1 <= c <= 8
    ensures Code(ErrorOfCode(c).value) == c
  {
  }

  /**
    The outcome of a decoding step: a value, one of the error kinds, or a
    Rust panic (which aborts the program through its panic handler).
   */
  datatype Outcome<+T> = Ok(value: T) | Err(error: Error) | Panic {

    predicate IsFailure() {
      !Ok?
    }

    function PropagateFailure<U>(): (r: Outcome<U>)
      requires !Ok?
      ensures r.Err? <==> Err?
      ensures Err? ==> r.error == error
    {
      if Err? then Err(error) else Panic
    }

    function Extract(): T
      requires Ok?
    {
      value
    }
  }

  /** The status the program exits with when the decode fails. */
  const PANIC_STATUS: nat := 101

  /**
    Exit status of a failed decode: the error's code, or the panic handler's
    status for a panic.
   */
  function FailureStatus<T>(o: Outcome<T>): (status: nat)
    requires !o.Ok?
    ensures status != 0
    ensures o.Err? ==> ErrorOfCode(status) == Some(o.error)
    ensures o.Panic? <==> status == PANIC_STATUS
  {
    if o.Err? then CodeRoundTrip(o.error); Code(o.error) else PANIC_STATUS
  }

  /** Different failures exit with different statuses. */
  lemma FailureStatusInjective<T>(o1: Outcome<T>, o2: Outcome<T>)
    requires !o1.Ok? && !o2.Ok?
    requires FailureStatus(o1) == FailureStatus(o2)
    ensures o1 == o2
  {
  }
}

=== FILE: loops.dfy ===
/**
  The decode pass written as the program writes it: nested loops over groups,
  fields and pool entries that consume the DNA in place, advance the
  generator, and return at the first failure. Proved to agree with the
  recursive `Decoder.Decode` on every input.
 */
module DecoderLoops {
  import opened Bytes
  import opened Errors
  import opened Wrappers
  import opened Dob
  import opened Offset
  import opened Pool
  import opened Decoder

  /** `o` with `prefix` in front of the traits it emits. */
  function PrependResolutions(prefix: seq<Trait>, o: Outcome<Resolutions>): Outcome<Resolutions> {
    match o
    case Ok(x) => Ok(Resolutions(prefix + x.traits, x.drawn))
    case Err(e) => Err(e)
    case Panic => Panic
  }

  function PrependTraits(prefix: seq<Trait>, o: Outcome<Step>): Outcome<Step> {
    match o
    case Ok(s) => Ok(Step(prefix + s.traits, s.dna, s.drawn))
    case Err(e) => Err(e)
    case Panic => Panic
  }

  function PrependGroups(prefix: seq<DecodedGroup>, o: Outcome<Progress>): Outcome<Progress> {
    match o
    case Ok(p) => Ok(Progress(prefix + p.groups, p.dna, p.drawn))
    case Err(e) => Err(e)
    case Panic => Panic
  }

  /** Resolving the pool from entry `p` on: entry `p`, then the entries after it. */
  lemma PoolContinues(offset: U64, pool: seq<PoolEntry>, p: nat, rng: Rng, drawn: nat, before: seq<Trait>, x: Resolved)
    requires p < |pool|
    requires ResolveEntry(offset, pool[p], rng, drawn) == Ok(x)
    ensures PrependResolutions(before, ResolvePool(offset, pool[p..], rng, drawn))
         == PrependResolutions(before + [x.emitted], ResolvePool(offset, pool[p + 1..], rng, x.drawn))
  {
    assert pool[p..][1..] == pool[p + 1..];
    var rest := ResolvePool(offset, pool[p + 1..], rng, x.drawn);
    if rest.Ok? {
      assert before + ([x.emitted] + rest.value.traits) == (before + [x.emitted]) + rest.value.traits;
    }
  }

  /** A failing entry makes the pool from it on fail the same way. */
  lemma PoolStops(offset: U64, pool: seq<PoolEntry>, p: nat, rng: Rng, drawn: nat)
    requires p < |pool|
    requires !ResolveEntry(offset, pool[p], rng, drawn).Ok?
    ensures ResolvePool(offset, pool[p..], rng, drawn)
         == ResolveEntry(offset, pool[p], rng, drawn).PropagateFailure()
  {
  }

  /** Decoding the fields from field `f` on: field `f`, then the fields after it. */
  lemma FieldsContinue(fields: seq<Field>, f: nat, dna: seq<Byte>, rng: Rng, drawn: nat, before: seq<Trait>, s: Step)
    requires f < |fields|
    requires DecodeField(fields[f], dna, rng, drawn) == Ok(s)
    ensures PrependTraits(before, DecodeFields(fields[f..], dna, rng, drawn))
         == PrependTraits(before + s.traits, DecodeFields(fields[f + 1..], s.dna, rng, s.drawn))
  {
    assert fields[f..][1..] == fields[f + 1..];
    var rest := DecodeFields(fields[f + 1..], s.dna, rng, s.drawn);
    if rest.Ok? {
      assert before + (s.traits + rest.value.traits) == (before + s.traits) + rest.value.traits;
    }
  }

  /** Decoding the groups from group `g` on: group `g`, then the groups after it. */
  lemma GroupsContinue(schema: Schema, g: nat, dna: seq<Byte>, rng: Rng, drawn: nat, before: seq<DecodedGroup>, s: Step)
    requires g < |schema|
    requires DecodeFields(schema[g].fields, dna, rng, drawn) == Ok(s)
    ensures PrependGroups(before, DecodeGroups(schema[g..], dna, rng, drawn))
         == PrependGroups(before + [DecodedGroup(schema[g].name, s.traits)], DecodeGroups(schema[g + 1..], s.dna, rng, s.drawn))
  {
    assert schema[g..][1..] == schema[g + 1..];
    var rest := DecodeGroups(schema[g + 1..], s.dna, rng, s.drawn);
    if rest.Ok? {
      var d := DecodedGroup(schema[g].name, s.traits);
      assert before + ([d] + rest.value.groups) == (before + [d]) + rest.value.groups;
    }
  }

  /**
    The loop over a field's pool entries: each entry resolves the same offset,
    and the first failing entry ends the loop with its failure.
   */
  method ResolvePoolLoop(offset: U64, pool: seq<PoolEntry>, rng: Rng, drawn: nat) returns (r: Outcome<Resolutions>)
    ensures r == ResolvePool(offset, pool, rng, drawn)
  {
    var emitted: seq<Trait> := [];
    var taken := drawn;
    assert pool[0..] == pool;
    var whole := ResolvePool(offset, pool, rng, drawn);
    if whole.Ok? {
      assert [] + whole.value.traits == whole.value.traits;
    }
    for p := 0 to |pool|
      invariant whole == PrependResolutions(emitted, ResolvePool(offset, pool[p..], rng, taken))
    {
      var resolved := ResolveEntry(offset, pool[p], rng, taken);
      if !resolved.Ok? {
        PoolStops(offset, pool, p, rng, taken);
        return resolved.PropagateFailure();
      }
      PoolContinues(offset, pool, p, rng, taken, emitted, resolved.value);
      emitted := emitted + [resolved.value.emitted];
      taken := resolved.value.drawn;
    }
    assert pool[|pool|..] == [] && emitted + [] == emitted;
    return Ok(Resolutions(emitted, taken));
  }

  /**
    One field: the byte-taking loop, the offset, then the pool loop or the
    offset itself as the field's one trait.
   */
  method DecodeFieldSteps(field: Field, dna: seq<Byte>, rng: Rng, drawn: nat) returns (r: Outcome<Step>)
    ensures r == DecodeField(field, dna, rng, drawn)
  {
    var split := TakeSegment(dna, field.byteLength);
    if !split.Ok? {
      return Err(InsufficientDNABytes);
    }
    var offset := SegmentOffset(split.value.segment);
    if !offset.Ok? {
      return Err(InvalidDNAByteLengthSchema);
    }
    match field.pool {
      case None =>
        return Ok(Step([Number(offset.value)], split.value.rest, drawn));
      case Some(pool) =>
        var resolved := ResolvePoolLoop(offset.value, pool, rng, drawn);
        if !resolved.Ok? {
          return resolved.PropagateFailure();
        }
        return Ok(Step(resolved.value.traits, split.value.rest, resolved.value.drawn));
    }
  }

  /** The loop over a group's fields, each taking its bytes after the one before. */
  method DecodeFieldsLoop(fields: seq<Field>, dna: seq<Byte>, rng: Rng, drawn: nat) returns (r: Outcome<Step>)
    ensures r == DecodeFields(fields, dna, rng, drawn)
  {
    var traits: seq<Trait> := [];
    var remaining := dna;
    var taken := drawn;
    assert fields[0..] == fields;
    var whole := DecodeFields(fields, dna, rng, drawn);
    if whole.Ok? {
      assert [] + whole.value.traits == whole.value.traits;
    }
    for f := 0 to |fields|
      invariant whole == PrependTraits(traits, DecodeFields(fields[f..], remaining, rng, taken))
    {
      var step := DecodeFieldSteps(fields[f], remaining, rng, taken);
      if !step.Ok? {
        assert fields[f..][0] == fields[f];
        return step.PropagateFailure();
      }
      FieldsContinue(fields, f, remaining, rng, taken, traits, step.value);
      traits := traits + step.value.traits;
      remaining := step.value.dna;
      taken := step.value.drawn;
    }
    assert fields[|fields|..] == [] && traits + [] == traits;
    return Ok(Step(traits, remaining, taken));
  }

  /**
    The decode loop of the program over the schema's groups. `remaining` is
    the DNA bytes are removed from, `drawn` the number of `next_u64` calls made
    so far; each group is pushed once all its fields have decoded.
   */
  method DecodeLoops(schema: Schema, dna: seq<Byte>, rng: Rng) returns (r: Outcome<seq<DecodedGroup>>)
    ensures r == Decode(schema, dna, rng)
  {
    var result: seq<DecodedGroup> := [];
    var remaining := dna;
    var drawn := 0;
    assert schema[0..] == schema;
    var whole := DecodeGroups(schema, dna, rng, 0);
    if whole.Ok? {
      assert [] + whole.value.groups == whole.value.groups;
    }
    for g := 0 to |schema|
      invariant whole == PrependGroups(result, DecodeGroups(schema[g..], remaining, rng, drawn))
    {
      var group := schema[g];
      var decoded := DecodeFieldsLoop(group.fields, remaining, rng, drawn);
      if !decoded.Ok? {
        assert schema[g..][0] == group;
        return decoded.PropagateFailure();
      }
      GroupsContinue(schema, g, remaining, rng, drawn, result, decoded.value);
      result := result + [DecodedGroup(group.name, decoded.value.traits)];
      remaining := decoded.value.dna;
      drawn := decoded.value.drawn;
    }
    assert schema[|schema|..] == [] && result + [] == result;
    return Ok(result);
  }
}

=== FILE: offset.dfy ===
/**
  Taking a field's bytes off the front of the DNA, and turning them into the
  field's offset.
 */
module Offset {
  import opened Bytes
  import opened Errors
  import opened Dob

  /** A taken segment and the DNA left after it. */
  datatype Split = Split(segment: seq<Byte>, rest: seq<Byte>)

  /**
    Takes `n` bytes off the front of `dna`; fails when fewer than `n` remain,
    whatever `n` is.
   */
  function Take(dna: seq<Byte>, n: nat): (r: Outcome<Split>)
    ensures r.Ok? || r == Err(InsufficientDNABytes)
    ensures r.Ok? <==> n <= |dna|
    ensures r.Ok? ==> |r.value.segment| == n && r.value.segment + r.value.rest == dna
  {
    if |dna| < n then Err(InsufficientDNABytes) else Ok(Split(dna[..n], dna[n..]))
  }

  /**
    The byte-by-byte loop of the program: `n` times, fail if the DNA is empty,
    otherwise move its first byte to the end of the segment.
   */
  method TakeSegment(dna: seq<Byte>, n: nat) returns (r: Outcome<Split>)
    ensures r == Take(dna, n)
  {
    var remaining := dna;
    var segment := [];
    for i := 0 to n
      invariant i <= |dna|
      invariant segment == dna[..i] && remaining == dna[i..]
    {
      if |remaining| == 0 {
        return Err(InsufficientDNABytes);
      }
      segment := segment + [remaining[0]];
      remaining := remaining[1..];
    }
    return Ok(Split(segment, remaining));
  }

  /**
    The offset of a segment: one byte as is, two bytes little-endian, four
    bytes big-endian, eight bytes little-endian; any other length is a schema
    error.
   */
  function SegmentOffset(segment: seq<Byte>): (r: Outcome<U64>)
    ensures r.Ok? <==> ValidByteLength(|segment|)
    ensures r.Ok? || r == Err(InvalidDNAByteLengthSchema)
    ensures r.Ok? ==> r.value < Pow256(|segment|)
  {
    EightBytesAreU64();
    if |segment| == 1 then Ok(segment[0])
    else if |segment| == 2 then Ok(FromLittleEndian(segment))
    else if |segment| == 4 then Ok(FromBigEndian(segment))
    else if |segment| == 8 then Ok(FromLittleEndian(segment))
    else Err(InvalidDNAByteLengthSchema)
  }

  /**
    The asymmetric byte order, stated as round trips: every value of the
    field's width is read back from its 2-byte little-endian, 4-byte
    big-endian and 8-byte little-endian encoding.
   */
  lemma OffsetByteOrder(n: nat)
    ensures n < 256 ==> SegmentOffset([n]) == Ok(n)
    ensures n < Pow256(2) ==> SegmentOffset(ToLittleEndian(n, 2)) == Ok(n)
    ensures n < Pow256(4) ==> SegmentOffset(ToBigEndian(n, 4)) == Ok(n)
    ensures n < Pow256(8) ==> SegmentOffset(ToLittleEndian(n, 8)) == Ok(n)
  {
    if n < Pow256(2) {
      var bs := ToLittleEndian(n, 2);
      assert |bs| == 2 && FromLittleEndian(bs) == n;
    }
    if n < Pow256(4) {
      var bs := ToBigEndian(n, 4);
      assert |bs| == 4 && FromBigEndian(bs) == n;
    }
    if n < Pow256(8) {
      var bs := ToLittleEndian(n, 8);
      assert |bs| == 8 && FromLittleEndian(bs) == n;
    }
  }

  /** Patterns on which the three byte orders give different answers. */
  lemma OffsetExamples()
    ensures SegmentOffset([0x01, 0x00]) == Ok(1)
    ensures SegmentOffset([0x00, 0x01]) == Ok(256)
    ensures SegmentOffset([0x00, 0x00, 0x00, 0x01]) == Ok(1)
    ensures SegmentOffset([0x01, 0x00, 0x00, 0x00]) == Ok(0x0100_0000)
    ensures SegmentOffset([0x01, 0, 0, 0, 0, 0, 0, 0]) == Ok(1)
    ensures SegmentOffset([0x0A]) == Ok(10)
    ensures SegmentOffset([1, 2, 3]) == Err(InvalidDNAByteLengthSchema)
  {
    assert [0x01, 0x00][1..] == [0x00];
    assert [0x00, 0x01][1..] == [0x01];
    var be1: seq<Byte> := [0x00, 0x00, 0x00, 0x01];
    assert FromBigEndian(be1[..3]) == 0 by {
      ZeroBytes(be1[..3]);
    }
    assert FromBigEndian(be1) == 1;
    var be2: seq<Byte> := [0x01, 0x00, 0x00, 0x00];
    assert FromBigEndian(be2[..1]) == 1 by {
      assert be2[..1] == [1];
    }
    assert FromBigEndian(be2[..2]) == 0x100 by {
      assert be2[..2][..1] == be2[..1];
    }
    assert FromBigEndian(be2[..3]) == 0x1_0000 by {
      assert be2[..3][..2] == be2[..2];
    }
    assert FromBigEndian(be2) == 0x100_0000 by {
      assert be2[..3] == be2[..|be2| - 1];
    }
    var le: seq<Byte> := [0x01, 0, 0, 0, 0, 0, 0, 0];
    assert le[1..] == [0, 0, 0, 0, 0, 0, 0];
    assert FromLittleEndian(le[1..]) == 0 by {
      ZeroBytes(le[1..]);
    }
  }

  /** All-zero bytes read as zero in either order. */
  lemma {:induction false} ZeroBytes(bs: seq<Byte>)
    requires forall i :: 0 <= i < |bs| ==> bs[i] == 0
    ensures FromLittleEndian(bs) == 0
    ensures FromBigEndian(bs) == 0
  {
    if |bs| > 0 {
      ZeroBytes(bs[1..]);
      ZeroBytes(bs[..|bs| - 1]);
    }
  }
}

=== FILE: pool.dfy ===
/**
  Resolving a field's offset against its trait pool: each entry of the pool
  emits one trait, computed from the same offset; mutant entries first add the
  next random draw.
 */
module Pool {
  import opened Bytes
  import opened Errors
  import opened Dob

  /**
    The seeded generator, seen as the stream of its draws: `rng(k)` is the
    value of the `k`-th call to `next_u64`, counting from 0.
   */
  type Rng = nat -> U64

  /** The two streams give the same `count` draws from position `from` on. */
  ghost predicate Agree(rng1: Rng, rng2: Rng, from: nat, count: nat) {
    forall k :: from <= k < from + count ==> rng1(k) == rng2(k)
  }

  /** One emitted trait, and the number of draws taken so far. */
  datatype Resolved = Resolved(emitted: Trait, drawn: nat)

  /** The traits of a whole pool, and the number of draws taken so far. */
  datatype Resolutions = Resolutions(traits: seq<Trait>, drawn: nat)

  /** The failure an invalid entry aborts the decode with. */
  function Rejection<T>(entry: PoolEntry): (r: Outcome<T>)
    requires !entry.Valid()
    ensures !r.Ok?
  {
    if entry.IsSet() then Err(InvalidDNASetSchema)
    else if entry.upper < entry.lower then Err(InvalidDNARangeSchema)
    else Panic
  }

  /** The number an entry selects with: the offset, plus the next draw (wrapping) for mutant kinds. */
  function SelectionKey(offset: U64, entry: PoolEntry, rng: Rng, drawn: nat): U64 {
    if entry.IsMutant() then WrappingAdd(offset, rng(drawn)) else offset
  }

  /** The traits an entry may emit: an element of its set, or a value inside its range. */
  predicate Admissible(entry: PoolEntry, t: Trait) {
    match entry
    case StringVec(strings) => t.String? && t.text in strings
    case NumberVec(numbers) => t.Number? && t.number in numbers
    case FloatVec(numerators, d) => t.Float? && t.numerator in numerators && t.denominator == d
    case MutantVec(mutants) => t.Number? && t.number in mutants
    case NumberRange(lo, hi) => t.Number? && lo <= t.number < hi
    case FloatRange(lo, hi, d) => t.Float? && lo <= t.numerator < hi && t.denominator == d
    case MutantRange(lo, hi) => t.Number? && lo <= t.number < hi
  }

  /**
    `t` is what `key` selects from `entry`: for a set, the element at the one
    position congruent to `key` modulo the set's size; for a range, the value
    of the range congruent to `lower + key` modulo the range's width.
   */
  predicate SelectedBy(entry: PoolEntry, key: int, t: Trait)
    requires entry.Valid()
  {
    if entry.IsSet() then
      forall i :: 0 <= i < entry.SetSize() && (key - i) % entry.SetSize() == 0 ==> t == entry.SetElement(i)
    else
      var width := entry.upper - entry.lower;
      match entry
      case FloatRange(lo, hi, d) =>
        t.Float? && t.denominator == d && lo <= t.numerator < hi && (t.numerator - lo - key) % width == 0
      case _ =>
        t.Number? && entry.lower <= t.number < entry.upper && (t.number - entry.lower - key) % width == 0
  }

  /** Quotient and remainder are unique: `n * q + r` with `0 <= r < n` leaves remainder `r`. */
  lemma ModOfMultiplePlusResidue(n: int, q: int, r: int)
    requires 0 <= r < n
    ensures (n * q + r) % n == r
  {
    var k := n * q + r;
    var q' := k / n;
    var r' := k % n;
    assert n * (q - q') == r' - r;
    if q - q' >= 1 {
      assert false;
    } else if q - q' <= -1 {
      assert false;
    }
  }

  /** `k mod n` is the one position below `n` congruent to `k`. */
  lemma ModIsUniqueResidue(k: int, i: int, n: int)
    requires 0 <= i < n
    requires (k - i) % n == 0
    ensures k % n == i
  {
    var q := (k - i) / n;
    assert k == n * q + i;
    ModOfMultiplePlusResidue(n, q, i);
  }

  /** The set kinds pick element `k mod size`. */
  lemma SetPickIsSelected(entry: PoolEntry, key: nat)
    requires entry.IsSet() && entry.SetSize() > 0
    ensures SelectedBy(entry, key, entry.SetElement(key % entry.SetSize()))
  {
    forall i | 0 <= i < entry.SetSize() && (key - i) % entry.SetSize() == 0
      ensures entry.SetElement(key % entry.SetSize()) == entry.SetElement(i)
    {
      ModIsUniqueResidue(key, i, entry.SetSize());
    }
  }

  /** `lower + k mod width` is the value of the range congruent to `lower + k`. */
  lemma RangePickIsCongruent(lo: int, key: nat, width: int)
    requires width > 0
    ensures (lo + key % width - lo - key) % width == 0
  {
    assert lo + key % width - lo - key == width * -(key / width) + 0;
    ModOfMultiplePlusResidue(width, -(key / width), 0);
  }

  /**
    One pool entry: an empty set is a set-schema error, a range whose upper
    bound is below its lower bound is a range-schema error, an empty range
    panics on its `% 0`; otherwise the entry emits the trait its key selects.
   */
  function ResolveEntry(offset: U64, entry: PoolEntry, rng: Rng, drawn: nat): (r: Outcome<Resolved>)
    ensures r.Ok? <==> entry.Valid()
    ensures !entry.Valid() ==> r == Rejection(entry)
    ensures r.Ok? ==> SelectedBy(entry, SelectionKey(offset, entry, rng, drawn), r.value.emitted)
    ensures r.Ok? ==> Admissible(entry, r.value.emitted)
    ensures r.Ok? ==> r.value.drawn == drawn + (if entry.IsMutant() then 1 else 0)
  {
    match entry
    case StringVec(strings) =>
      if |strings| == 0 then Err(InvalidDNASetSchema)
      else
        SetPickIsSelected(entry, offset);
        Ok(Resolved(String(strings[offset % |strings|]), drawn))
    case NumberVec(numbers) =>
      if |numbers| == 0 then Err(InvalidDNASetSchema)
      else
        SetPickIsSelected(entry, offset);
        Ok(Resolved(Number(numbers[offset % |numbers|]), drawn))
    case FloatVec(numerators, denominator) =>
      if |numerators| == 0 then Err(InvalidDNASetSchema)
      else
        SetPickIsSelected(entry, offset);
        Ok(Resolved(Float(numerators[offset % |numerators|], denominator), drawn))
    case MutantVec(mutants) =>
      if |mutants| == 0 then Err(InvalidDNASetSchema)
      else
        var key := WrappingAdd(offset, rng(drawn));
        SetPickIsSelected(entry, key);
        Ok(Resolved(Number(mutants[key % |mutants|]), drawn + 1))
    case NumberRange(lower, upper) =>
      if upper < lower then Err(InvalidDNARangeSchema)
      else if upper == lower then Panic
      else
        RangePickIsCongruent(lower, offset, upper - lower);
        Ok(Resolved(Number(lower + offset % (upper - lower)), drawn))
    case FloatRange(lower, upper, denominator) =>
      if upper < lower then Err(InvalidDNARangeSchema)
      else if upper == lower then Panic
      else
        RangePickIsCongruent(lower, offset, upper - lower);
        Ok(Resolved(Float(lower + offset % (upper - lower), denominator), drawn))
    case MutantRange(lower, upper) =>
      if upper < lower then Err(InvalidDNARangeSchema)
      else if upper == lower then Panic
      else
        var key := WrappingAdd(offset, rng(drawn));
        RangePickIsCongruent(lower, key, upper - lower);
        Ok(Resolved(Number(lower + key % (upper - lower)), drawn + 1))
  }

  /**
    A whole pool, entry by entry in pool order, every entry resolving the same
    offset; the first failing entry aborts the pool.
   */
  function ResolvePool(offset: U64, pool: seq<PoolEntry>, rng: Rng, drawn: nat): (r: Outcome<Resolutions>)
    ensures r.Ok? <==> PoolValid(pool)
    ensures r.Ok? ==> |r.value.traits| == |pool|
    ensures r.Ok? ==> r.value.drawn == drawn + PoolMutants(pool)
    ensures r.Err? ==> r.error == InvalidDNASetSchema || r.error == InvalidDNARangeSchema
    decreases |pool|
  {
    if |pool| == 0 then Ok(Resolutions([], drawn))
    else
      assert PoolValid(pool) <==> pool[0].Valid() && PoolValid(pool[1..]) by {
        if pool[0].Valid() && PoolValid(pool[1..]) {
          forall i | 0 <= i < |pool| ensures pool[i].Valid() {
            if i > 0 {
              assert pool[i] == pool[1..][i - 1];
            }
          }
        }
      }
      var first :- ResolveEntry(offset, pool[0], rng, drawn);
      var rest :- ResolvePool(offset, pool[1..], rng, first.drawn);
      Ok(Resolutions([first.emitted] + rest.traits, rest.drawn))
  }

  /** A pool that fails, fails as its first invalid entry does. */
  lemma {:induction false} PoolFailsAtFirstInvalid(offset: U64, pool: seq<PoolEntry>, rng: Rng, drawn: nat, j: nat)
    requires j < |pool| && !pool[j].Valid()
    requires forall i :: 0 <= i < j ==> pool[i].Valid()
    ensures ResolvePool(offset, pool, rng, drawn) == Rejection(pool[j])
  {
    if j > 0 {
      var first := ResolveEntry(offset, pool[0], rng, drawn);
      assert first.Ok?;
      PoolFailsAtFirstInvalid(offset, pool[1..], rng, first.value.drawn, j - 1);
    }
  }

  /**
    Draw order: the `i`-th trait of a pool is what its `i`-th entry emits when
    resolved after every earlier mutant entry has taken its draw.
   */
  lemma ResolvePoolInOrder(offset: U64, pool: seq<PoolEntry>, rng: Rng, drawn: nat, i: nat)
    requires ResolvePool(offset, pool, rng, drawn).Ok?
    requires i < |pool|
    ensures ResolveEntry(offset, pool[i], rng, drawn + PoolMutants(pool[..i]))
         == Ok(Resolved(ResolvePool(offset, pool, rng, drawn).value.traits[i], drawn + PoolMutants(pool[..i + 1])))
  {
    EntriesInOrder(offset, pool, rng, drawn, ResolvePool(offset, pool, rng, drawn).value, i);
    MutantsOfLongerPrefix(pool, i);
  }

  /** Every trait a pool emits is one its own entry admits: an element of the set, or a value inside the range. */
  lemma ResolvePoolAdmissible(offset: U64, pool: seq<PoolEntry>, rng: Rng, drawn: nat, i: nat)
    requires ResolvePool(offset, pool, rng, drawn).Ok?
    requires i < |pool|
    ensures Admissible(pool[i], ResolvePool(offset, pool, rng, drawn).value.traits[i])
  {
    ResolvePoolInOrder(offset, pool, rng, drawn, i);
  }

  /** `ResolvePoolInOrder` for a pool known to resolve to `res`, by induction on the pool. */
  lemma {:induction false} EntriesInOrder(offset: U64, pool: seq<PoolEntry>, rng: Rng, drawn: nat, res: Resolutions, i: nat)
    requires ResolvePool(offset, pool, rng, drawn) == Ok(res)
    requires i < |pool|
    ensures ResolveEntry(offset, pool[i], rng, drawn + PoolMutants(pool[..i]))
         == Ok(Resolved(res.traits[i], drawn + PoolMutants(pool[..i]) + (if pool[i].IsMutant() then 1 else 0)))
    decreases |pool|, 1
  {
    if i == 0 {
      var first, rest := ResolvePoolSplit(offset, pool, rng, drawn);
      assert pool[..0] == [];
    } else {
      LaterEntriesInOrder(offset, pool, rng, drawn, res, i);
    }
  }

  /** `EntriesInOrder` past the first entry, from the same fact about the pool's tail. */
  lemma {:induction false} LaterEntriesInOrder(offset: U64, pool: seq<PoolEntry>, rng: Rng, drawn: nat, res: Resolutions, i: nat)
    requires ResolvePool(offset, pool, rng, drawn) == Ok(res)
    requires 0 < i < |pool|
    ensures ResolveEntry(offset, pool[i], rng, drawn + PoolMutants(pool[..i]))
         == Ok(Resolved(res.traits[i], drawn + PoolMutants(pool[..i]) + (if pool[i].IsMutant() then 1 else 0)))
    decreases |pool|, 0
  {
    var first, rest := ResolvePoolSplit(offset, pool, rng, drawn);
    EntriesInOrder(offset, pool[1..], rng, first.drawn, rest, i - 1);
    EntryAfterFirst(offset, pool, rng, drawn, i, pool[1..], i - 1, first, rest, res);
  }

  /** The mutants of the first `i + 1` entries: those of the first `i`, then entry `i`'s. */
  lemma MutantsOfLongerPrefix(pool: seq<PoolEntry>, i: nat)
    requires i < |pool|
    ensures PoolMutants(pool[..i + 1]) == PoolMutants(pool[..i]) + (if pool[i].IsMutant() then 1 else 0)
  {
    if i > 0 {
      MutantsOfPrefix(pool, i);
      MutantsOfPrefix(pool, i + 1);
      MutantsOfLongerPrefix(pool[1..], i - 1);
      assert pool[1..][i - 1] == pool[i];
    } else {
      assert pool[..1][1..] == [];
    }
  }

  /** A pool that resolves, split into its first entry's resolution and the rest's. */
  lemma ResolvePoolSplit(offset: U64, pool: seq<PoolEntry>, rng: Rng, drawn: nat) returns (first: Resolved, rest: Resolutions)
    requires |pool| > 0 && ResolvePool(offset, pool, rng, drawn).Ok?
    ensures ResolveEntry(offset, pool[0], rng, drawn) == Ok(first)
    ensures ResolvePool(offset, pool[1..], rng, first.drawn) == Ok(rest)
    ensures first.drawn == drawn + (if pool[0].IsMutant() then 1 else 0)
    ensures ResolvePool(offset, pool, rng, drawn).value.traits == [first.emitted] + rest.traits
  {
    ResolvePoolUnfold(offset, pool, rng, drawn);
    first := ResolveEntry(offset, pool[0], rng, drawn).value;
    rest := ResolvePool(offset, pool[1..], rng, first.drawn).value;
  }

  /**
    The step of `ResolvePoolInOrder`: entry `i` of a pool is entry `i - 1`
    of its tail, whose draws start after the first entry's.
   */
  lemma EntryAfterFirst(offset: U64, pool: seq<PoolEntry>, rng: Rng, drawn: nat, i: nat,
                        tail: seq<PoolEntry>, j: nat, first: Resolved, rest: Resolutions, whole: Resolutions)
    requires i == j + 1 && i < |pool| && tail == pool[1..] && j < |rest.traits|
    requires first.drawn == drawn + (if pool[0].IsMutant() then 1 else 0)
    requires whole.traits == [first.emitted] + rest.traits
    requires ResolveEntry(offset, tail[j], rng, first.drawn + PoolMutants(tail[..j]))
          == Ok(Resolved(rest.traits[j], first.drawn + PoolMutants(tail[..j]) + (if tail[j].IsMutant() then 1 else 0)))
    ensures ResolveEntry(offset, pool[i], rng, drawn + PoolMutants(pool[..i]))
         == Ok(Resolved(whole.traits[i], drawn + PoolMutants(pool[..i]) + (if pool[i].IsMutant() then 1 else 0)))
  {
    MutantsOfPrefix(pool, i);
    assert tail[j] == pool[i];
  }

  /** A pool that resolves is its first entry's trait followed by the rest's. */
  lemma ResolvePoolUnfold(offset: U64, pool: seq<PoolEntry>, rng: Rng, drawn: nat)
    requires |pool| > 0 && ResolvePool(offset, pool, rng, drawn).Ok?
    ensures ResolveEntry(offset, pool[0], rng, drawn).Ok?
    ensures var first := ResolveEntry(offset, pool[0], rng, drawn).value;
      var rest := ResolvePool(offset, pool[1..], rng, first.drawn);
      && rest.Ok?
      && ResolvePool(offset, pool, rng, drawn).value
         == Resolutions([first.emitted] + rest.value.traits, rest.value.drawn)
  {
  }

  /** The mutants of a non-empty prefix: the first entry's, then those of the rest's prefix. */
  lemma MutantsOfPrefix(pool: seq<PoolEntry>, i: nat)
    requires 0 < i <= |pool|
    ensures PoolMutants(pool[..i]) == (if pool[0].IsMutant() then 1 else 0) + PoolMutants(pool[1..][..i - 1])
  {
    assert pool[..i][1..] == pool[1..][..i - 1];
  }

  /** A pool reads only the draws its own mutant entries take. */
  lemma {:induction false} ResolvePoolReadsOnlyItsDraws(offset: U64, pool: seq<PoolEntry>, rng1: Rng, rng2: Rng, drawn: nat)
    requires Agree(rng1, rng2, drawn, PoolMutants(pool))
    ensures ResolvePool(offset, pool, rng1, drawn) == ResolvePool(offset, pool, rng2, drawn)
  {
    if |pool| > 0 {
      if pool[0].IsMutant() {
        assert rng1(drawn) == rng2(drawn);
      }
      var first := ResolveEntry(offset, pool[0], rng1, drawn);
      assert first == ResolveEntry(offset, pool[0], rng2, drawn);
      if first.Ok? {
        ResolvePoolReadsOnlyItsDraws(offset, pool[1..], rng1, rng2, first.value.drawn);
      }
    }
  }
}

=== FILE: wrappers.dfy ===
/** General-purpose wrapper types shared by every module of the model. */
module Wrappers {

  /** Rust's `Option`: a value, or nothing. */
  datatype Option<+T> = None | Some(value: T)
}
